=== FILE: README.md ===
# HBNB storage facade and REST views, in Dafny

This project models the core of an AirBnB-clone REST API ("HBNB"). The API serves six
entity kinds: Amenity, City, Place, Review, State and User. The model covers two parts.

- **The `DBStorage` facade** (`get`, `all`, `count`, `new`, `delete`) over an abstract
  store (`Storage`, with its laws in `StorageLaws`).
  - A store is the sequence of live rows in table order. Each row holds a kind, a
    primary key and an attribute dict.
  - `all` returns an insertion-ordered dict keyed `"<Class>.<id>"`.
  - `count` and `all` take a kind argument that can be a class name, a class object,
    `None`, or anything else.
- **The route handlers** of the `api`, `Backburnerapi` and `zackburnerapi` packages.
  - Each is a pure function from the store and the request body to a `Step`: the store
    after the request, plus the response.
  - The response is a reply, an `{"error": ...}` answer, or an exception that escapes
    the view and becomes a 4xx or 5xx.
  - The Python behaviours the views depend on live in `Py`: JSON values, `get_json`
    with and without `silent=True`, truthiness, `in`, subscripting, `.items()` and
    `**` unpacking.
  - The steps the views share live in `Views`: lookup-or-404, list, show, delete,
    create, and the `setattr` merge with its ignore list.

The store invariant is `Valid`: ids are unique within a kind, and each object's `"id"`
attribute is its key. The database enforces the first through primary keys. Every
shared step that writes keeps `Valid`: create (`Views.CreatedLaws`), delete
(`Views.DestroyLaws`) and update (`Views.AmendedLaws`). Most views restate this in a
lemma of their own.

Every view passes a class object to `storage.get`, and `get` as written rejects class
objects (models/engine/db_storage.py:79). Against the code as written, every show,
delete and update view therefore answers 404, whatever is stored. The model keeps both
versions of each such view:
- the plain view (`ApiStates.GetState`, for example) looks objects up with the corrected
  `get` (`Views.Lookup`, `Storage.Get`), so that the code after the lookup is reachable
  and its behaviour can be stated;
- its `...AsWritten` twin looks objects up with `get` as written (`Views.LookupAsWritten`)
  and is proved to answer 404 and leave the store unchanged for every store and key.

`count(k) == len(all(k))` holds only when ids are unique, because `all` builds a dict
and a repeated key would overwrite an entry. The model proves it under that condition
(`StorageLaws.CountIsSizeOfAll`).

## Model

| member | source | states |
|---|---|---|
| Storage.KindNamed | models/engine/db_storage.py:25-26 | Looking a name up in `classes` yields the kind whose class name it is; any other string yields nothing |
| Storage.First | models/engine/db_storage.py:82-85 | The query finds nothing exactly when no row of the kind has that key; otherwise it yields a stored row of that kind with that key |
| Storage.GetAsWritten | models/engine/db_storage.py:77-85 | `get` as written yields an object only for a class-name string and a string id that name a stored row; a class object, `None`, an unknown name or a non-string id yields `None` |
| Storage.Admits | models/engine/db_storage.py:79-81 | The corrected guard resolves names and class objects to their kind and rejects `None`, unknown names and foreign values |
| Storage.Get | models/engine/db_storage.py:77-85 | Corrected `get`: it yields an object exactly when the argument is admitted, the id is a string and such a row is stored; the result is that stored row; a missing row never raises |
| Storage.RowsOf | models/engine/db_storage.py:92 | `query(cls).all()` yields exactly the stored rows of that kind |
| Storage.SelectedAllKinds | models/engine/db_storage.py:90-94 | Visiting every kind of `classes` visits each stored row exactly once |
| Storage.Count | models/engine/db_storage.py:87-95 | `count` never exceeds the number of stored rows, and is 0 for an argument that selects no kind |
| Storage.Put | models/engine/db_storage.py:105 | Dict assignment brings in no entry but the new one, the key set gains exactly the key, and a fresh key is appended at the end |
| Storage.Collect | models/engine/db_storage.py:103-105 | Filing rows into a dict adds exactly their keys, and every new entry is a filed row under its own key |
| Storage.All | models/engine/db_storage.py:97-106 | Every entry of `all(cls)` is a stored row of a selected kind under the key `"<Class>.<id>"`; the keys are exactly those of the selected stored rows |
| Storage.New | models/engine/db_storage.py:108-110 | `new` adds the object after every existing row and changes nothing else |
| Storage.Remove | models/engine/db_storage.py:116-119 | Deleting removes exactly the rows with the object's kind and key; all other rows stay |
| Storage.Delete | models/engine/db_storage.py:116-119 | `delete(None)` changes nothing; `delete(obj)` removes exactly the rows with obj's kind and key |
| Storage.Replace | api/v1/views/states.py:66-70 | Saving a modified live object replaces its own row in place; every other row is unchanged |
| StorageLaws.KeyInjective | models/engine/db_storage.py:104 | A key `"<Class>.<id>"` determines both the class and the id, because the six class names start with different letters |
| StorageLaws.CollectFresh | models/engine/db_storage.py:100-105 | Rows with pairwise different kind and key are each filed once, in visiting order, and nothing is overwritten |
| StorageLaws.AllIsEntries | models/engine/db_storage.py:97-106 | With unique ids, `all` lists every selected row once: kinds in `classes` order, rows in table order |
| StorageLaws.CountIsSizeOfAll | models/engine/db_storage.py:87-106 | With unique ids, `count(cls) == len(all(cls))` for every argument |
| StorageLaws.AllOfOneKind | models/engine/db_storage.py:97-106 | `all(Cls)` and `all("Cls")` both give exactly that kind's rows, and both counts equal their number |
| StorageLaws.AllOfEverything | models/engine/db_storage.py:97-106 | `all()` holds every stored object, and its size is the table size and `count()` |
| StorageLaws.UnknownKind | models/engine/db_storage.py:91-101 | An argument that matches no kind, such as an unknown name or another class, counts 0 and gives an empty dict |
| StorageLaws.CountOfKind | models/engine/db_storage.py:87-95 | `count(Cls)` and `count("Cls")` both equal the number of that kind's rows, unique ids or not |
| StorageLaws.CountsPartition | models/engine/db_storage.py:87-95 | `count()` is the number of stored rows and equals the sum of the six per-class counts |
| StorageLaws.GetUnique | models/engine/db_storage.py:81-85 | With unique ids, `get` of a stored object's class and key returns that very object |
| StorageLaws.GetAgreesOnNames | models/engine/db_storage.py:79-85 | On class-name strings the corrected `get` answers exactly as the written one |
| StorageLaws.GetAsWrittenRejectsClasses | models/engine/db_storage.py:79 | The written `get` answers `None` for every class object, even when the corrected one finds the object |
| StorageLaws.GetAfterNew | tests/test_models/test_engine/test_db_storage.py:106-118 | After `new` of an object with a free key, the corrected `get(Cls, id)` returns it, as the test expects; the written `get` returns `None` |
| StorageLaws.GetAfterNewOther | models/engine/db_storage.py:108-110 | `new` does not change what `get` returns for any other kind and key |
| StorageLaws.GetAfterDelete | models/engine/db_storage.py:116-119 | After `delete(obj)`, `get` of its class and key returns `None` |
| StorageLaws.GetAfterReplace | api/v1/views/states.py:66-70 | After saving a modified object, `get` returns the modified object |
| StorageLaws.CountAfterNew | models/engine/db_storage.py:108-110 | `new` raises by one exactly the counts whose argument selects the object's kind |
| StorageLaws.CountAfterDelete | models/engine/db_storage.py:116-119 | Deleting a stored object lowers by one exactly the counts whose argument selects its kind |
| StorageLaws.CountAfterReplace | api/v1/views/states.py:66-70 | Saving a modified object changes no count |
| StorageLaws.ValidAfterNew | models/engine/db_storage.py:108-110 | `new` of an object with a free key and a matching "id" attribute keeps ids unique and consistent |
| StorageLaws.ValidAfterDelete | models/engine/db_storage.py:116-119 | `delete` keeps ids unique and consistent |
| StorageLaws.ValidAfterReplace | api/v1/views/states.py:66-70 | Saving a modified object whose "id" attribute still matches keeps ids unique and consistent |
| StorageLaws.OneOfEachKind | tests/test_models/test_engine/test_db_storage.py:120-136 | Starting empty, one `new` per class gives `count() == 6` and `count(Cls) == 1` for every class, whatever ids were drawn |
| Views.Require | api/v1/views/states.py:47-48 | `if 'field' not in data` goes on only when the field is present; absent gives 400 "Missing field"; an `in` test on a number, boolean or `None` raises |
| Views.Lookup | api/v1/views/states.py:24 | `storage.get(State, state_id)` with the guard of models/engine/db_storage.py:79 corrected to admit class objects: it finds something exactly when such an object is stored, and what it finds has that kind and key |
| Views.LookupAsWritten | api/v1/views/states.py:24 | `storage.get(State, state_id)` against the written guard never finds anything, whatever is stored |
| Views.ShowAsWritten | api/v1/views/states.py:21-27 | A show view against the written `get` answers 404 for every key and changes nothing |
| Views.DestroyAsWritten | api/v1/views/states.py:30-38 | A delete view against the written `get` answers 404 for every key and deletes nothing |
| Views.LookupDiscrepancy | models/engine/db_storage.py:79 | For a stored object, the corrected show answers 200 and the corrected delete removes it, while the written ones answer 404 and leave the store as it was |
| Views.ListAll | api/v1/views/states.py:17-18 | A list view changes nothing, answers 200, lists only stored objects of its kind, and with unique ids lists exactly them, as many as `count` says |
| Views.Show | api/v1/views/states.py:21-27 | With the corrected `get`, a show view changes nothing; it answers 200 with the stored object exactly when one has that key, and 404 otherwise |
| Views.Destroy | api/v1/views/states.py:30-38 | With the corrected `get`, a delete view answers 404 and changes nothing for a missing key; otherwise it answers 200 `{}` and removes exactly the objects with that kind and key |
| Views.DestroyLaws | api/v1/views/states.py:33-38 | Deleting keeps the store valid, lowers by one exactly the counts that see the kind, and a later show answers 404 |
| Views.Spawn | api/v1/views/states.py:49 | `Cls(**data)` has the payload's attributes, and its "id" attribute is its new key |
| Views.Create | api/v1/views/states.py:49-51 | A create with a taken key raises (500) and changes nothing; otherwise it appends the new object and answers 201 with it |
| Views.CreatedLaws | api/v1/views/states.py:49-51 | A create keeps the store valid, raises by one exactly the counts that see the kind, and a later show returns the new object |
| Views.Merge | api/v1/views/states.py:65-68 | After the merge, every supplied key outside the ignore list has the payload's value; every other attribute keeps its value; no other key appears |
| Views.OverwritesUnique | api/v1/views/states.py:65-68 | The merge result is determined: any two maps with the merge property are equal |
| Views.MergeKeepsIgnored | api/v1/views/states.py:65-68 | An ignored key is never written: it keeps its value, or stays absent |
| Views.SetAttrs | api/v1/views/states.py:66-68 | The `setattr` loop over the payload ends with exactly the merged attributes |
| Views.Amend | api/v1/views/states.py:65-71 | An update answers 200 with the merged object, keeps its kind and key, and puts it in place of the stored one |
| Views.AmendedLaws | api/v1/views/states.py:65-71 | With "id" ignored, an update keeps the store valid, changes no count, leaves every other object where it was, and a later show returns the update |
| Views.AmendNothing | api/v1/views/amenities.py:67-72 | An update whose payload holds only ignored keys leaves the store exactly as it was |
| ApiStates.GetStates | api/v1/views/states.py:14-18 | GET /states changes nothing and, with unique ids, lists exactly the stored States |
| ApiStates.GetState | api/v1/views/states.py:21-27 | With the corrected `get`: GET /states/id answers 404 without a stored State of that key, else 200 with it |
| ApiStates.DeleteState | api/v1/views/states.py:30-38 | With the corrected `get`: DELETE answers 404 and changes nothing for a missing State; otherwise it answers 200 `{}` and removes only that State |
| ApiStates.CreateState | api/v1/views/states.py:41-51 | An unparsable or `null` body gives "Not a JSON" before the name check; a dict without "name" gives "Missing name"; success happens exactly for a dict with "name" and a free key, and adds it with 201; a failure leaves the store unchanged |
| ApiStates.CreateStateAddsOne | api/v1/views/states.py:49-51 | A successful create adds exactly one State, changes no other kind's count, and keeps the store valid |
| ApiStates.UpdateState | api/v1/views/states.py:54-71 | With the corrected `get`: the 404 check precedes the body check; any falsy body is "Not a JSON"; success happens exactly for a stored State and a non-empty dict, with the ignore-list merge; a failure leaves the store unchanged |
| ApiStates.GetStateAsWritten | api/v1/views/states.py:21-27 | GET against the written `get` answers 404 for every key and changes nothing |
| ApiStates.DeleteStateAsWritten | api/v1/views/states.py:30-38 | DELETE against the written `get` answers 404 for every key and deletes nothing |
| ApiStates.UpdateStateAsWritten | api/v1/views/states.py:54-71 | PUT against the written `get` answers 404 for every key, never reads the body, and changes nothing |
| ApiStates.UpdateStateKeepsIgnored | api/v1/views/states.py:65-71 | An update never writes "id", "created_at" or "updated_at", keeps the store valid and changes no count |
| ApiUsers.GetUsers | api/v1/views/users.py:12-16 | GET /users changes nothing and, with unique ids, lists exactly the stored Users |
| ApiUsers.GetUser | api/v1/views/users.py:19-25 | With the corrected `get`: GET /users/id answers 404 without a stored User of that key, else 200 with it |
| ApiUsers.DeleteUser | api/v1/views/users.py:28-36 | With the corrected `get`: DELETE answers 404 and changes nothing for a missing User; otherwise it answers 200 `{}` and removes only that User |
| ApiUsers.DeleteUserRemovesOne | api/v1/views/users.py:34-36 | Deleting a stored User lowers the User count and the total by exactly one and keeps the store valid |
| ApiUsers.CreateUserChecks | api/v1/views/users.py:42-48 | Create checks a falsy body, then "email", then "password", and the first failure decides the 400 |
| ApiUsers.CreateUser | api/v1/views/users.py:39-52 | A failed check answers with it and changes nothing; success happens exactly for a dict with "email" and "password" and a free key, and adds the User with 201 |
| ApiUsers.CreateUserAddsOne | api/v1/views/users.py:49-52 | A successful create adds exactly one User, keeps the store valid, and the User can then be fetched |
| ApiUsers.UpdateUser | api/v1/views/users.py:55-68 | With the corrected `get`: 404 before the body check; a falsy body is "Not a JSON"; success happens exactly for a stored User and a non-empty dict, with the ignore-list merge |
| ApiUsers.GetUserAsWritten | api/v1/views/users.py:19-25 | GET against the written `get` answers 404 for every key and changes nothing |
| ApiUsers.DeleteUserAsWritten | api/v1/views/users.py:28-36 | DELETE against the written `get` answers 404 for every key and deletes nothing |
| ApiUsers.UpdateUserAsWritten | api/v1/views/users.py:55-68 | PUT against the written `get` answers 404 for every key, never reads the body, and changes nothing |
| ApiUsers.UpdateUserKeepsEmail | api/v1/views/users.py:63-68 | An update never changes a User's "email", keeps the store valid, and a later GET sees the update |
| ApiAmenities.GetAmenities | api/v1/views/amenities.py:13-17 | GET /amenities changes nothing and, with unique ids, lists exactly the stored Amenities |
| ApiAmenities.GetAmenity | api/v1/views/amenities.py:20-26 | With the corrected `get`: GET /amenities/id answers 404 without a stored Amenity of that key, else 200 with it |
| ApiAmenities.DeleteAmenity | api/v1/views/amenities.py:29-37 | With the corrected `get`: DELETE answers 404 and changes nothing for a missing Amenity; otherwise it answers 200 `{}` and removes only that Amenity |
| ApiAmenities.DeleteAmenityRemovesOne | api/v1/views/amenities.py:32-37 | Deleting a stored Amenity lowers its count by one, keeps the store valid, and a later GET answers 404 |
| ApiAmenities.CreateAmenity | api/v1/views/amenities.py:40-53 | An unparsable body is "Not a JSON"; a `null` body raises at the `in` test; a dict without "name" is "Missing name"; success happens exactly for a dict with "name" and a free key |
| ApiAmenities.UpdateAmenity | api/v1/views/amenities.py:55-72 | With the corrected `get`: 404 is answered before the body is read; an unparsable body is "Not a JSON"; a body that is not a dict raises at `.items()`; every dict, `{}` included, is merged with 200 |
| ApiAmenities.GetAmenityAsWritten | api/v1/views/amenities.py:20-26 | GET against the written `get` answers 404 for every key and changes nothing |
| ApiAmenities.DeleteAmenityAsWritten | api/v1/views/amenities.py:29-37 | DELETE against the written `get` answers 404 for every key and deletes nothing |
| ApiAmenities.UpdateAmenityAsWritten | api/v1/views/amenities.py:55-72 | PUT against the written `get` answers 404 for every key, never reads the body, and changes nothing |
| ApiAmenities.UpdateAmenityWritingNothing | api/v1/views/amenities.py:67-72 | An update with `{}`, or with only ignored keys, answers 200 and leaves the store exactly as it was |
| ApiAmenities.UpdateAmenityLaws | api/v1/views/amenities.py:67-72 | An update never writes an ignored key, keeps the store valid, changes no count, and a later GET sees it |
| BackburnerUsers.GetUsers | Backburnerapi/v1/views/users.py:9-16 | GET /users changes nothing, answers 200 with stored Users only and, with unique ids, lists exactly the stored Users, as many as `count` says |
| BackburnerUsers.GetUser | Backburnerapi/v1/views/users.py:19-26 | With the corrected `get`: GET /users/id answers 404 without a stored User of that key, else 200 with that stored User |
| BackburnerUsers.DeleteUser | Backburnerapi/v1/views/users.py:29-41 | With the corrected `get`: DELETE answers 404 and changes nothing for a missing User; otherwise it answers 200 `{}` and removes only that User |
| BackburnerUsers.DeleteUserRemovesOne | Backburnerapi/v1/views/users.py:38-41 | Deleting a stored User lowers the total by one, keeps the store valid, and a later GET answers 404 |
| BackburnerUsers.PostUserChecks | Backburnerapi/v1/views/users.py:47-54 | An unparsable body raises (400) before any check; then a falsy body, "email" and "password" are checked in order |
| BackburnerUsers.PostUser | Backburnerapi/v1/views/users.py:44-60 | post_user never changes the store and never succeeds: a failed check answers with it, and every request that passes raises at the stray call |
| BackburnerUsers.PostUserIntended | Backburnerapi/v1/views/users.py:44-60 | With the stray call removed, success happens exactly for a dict with "email", "password" and a free key |
| BackburnerUsers.PostUserDiscrepancy | Backburnerapi/v1/views/users.py:56 | The written and intended create agree on every request the checks stop; wherever the intended one answers 201, the written one answers 500 |
| BackburnerUsers.PostUserCounterexample | Backburnerapi/v1/views/users.py:56 | A body holding "email" and "password" makes the written create raise, while the intended one adds the User |
| BackburnerUsers.PutUser | Backburnerapi/v1/views/users.py:63-80 | put_user with only `get` corrected, so that line 75 is reachable: it checks 404, then the parse (400), then a falsy body, then raises; the store never changes |
| BackburnerUsers.GetUserAsWritten | Backburnerapi/v1/views/users.py:19-26 | GET against the written `get` answers 404 for every key and changes nothing |
| BackburnerUsers.DeleteUserAsWritten | Backburnerapi/v1/views/users.py:29-41 | DELETE against the written `get` answers 404 for every key and deletes nothing |
| BackburnerUsers.PutUserAsWritten | Backburnerapi/v1/views/users.py:63-80 | PUT against the written `get` answers 404 for every key, never reads the body, and changes nothing |
| BackburnerUsers.PutUserIntended | Backburnerapi/v1/views/users.py:63-80 | With the stray call removed, the ignore-list merge runs for a stored User and a non-empty dict |
| BackburnerUsers.PutUserDiscrepancy | Backburnerapi/v1/views/users.py:75 | The written update agrees with the intended one before the stray call; wherever the intended one succeeds, the written one raises |
| BackburnerUsers.PutUserCounterexample | Backburnerapi/v1/views/users.py:75 | A stored User and a body setting "first_name" make the written update raise, while the intended one applies it |
| BackburnerUsers.PutUserIntendedKeepsEmail | Backburnerapi/v1/views/users.py:73-78 | The intended update never changes "email" and keeps the store valid |
| ZackPlaces.PlacesOf | zackburnerapi/v1/views/places.py:18 | `city.places` holds exactly the stored Places whose "city_id" is the City's key |
| ZackPlaces.GetPlacesByCity | zackburnerapi/v1/views/places.py:11-19 | With the corrected `get`: 404 for a missing City; otherwise 200 with exactly that City's Places; the store is unchanged |
| ZackPlaces.GetPlacesByCityAsWritten | zackburnerapi/v1/views/places.py:11-19 | GET /cities/id/places against the written `get` answers 404 for every City and changes nothing |
| ZackPlaces.GetPlace | zackburnerapi/v1/views/places.py:22-28 | With the corrected `get`: GET /places/id answers 404 without a stored Place of that key, else 200 with it |
| ZackPlaces.DeletePlace | zackburnerapi/v1/views/places.py:31-40 | With the corrected `get`: DELETE answers 404 and changes nothing for a missing Place; otherwise it answers 200 `{}` and removes only that Place |
| ZackPlaces.GetPlaceAsWritten | zackburnerapi/v1/views/places.py:22-28 | GET /places/id against the written `get` answers 404 for every key and changes nothing |
| ZackPlaces.DeletePlaceAsWritten | zackburnerapi/v1/views/places.py:31-40 | DELETE /places/id against the written `get` answers 404 for every key and deletes nothing |
| ZackPlaces.DeletePlaceUnlists | zackburnerapi/v1/views/places.py:35-40 | After deleting a Place, its City still lists its places, and the deleted key is not among them |
| ZackPlaces.BodyChecks | zackburnerapi/v1/views/places.py:51-52 | An unparsable body raises (400), and a falsy one is "Not a JSON"; only a truthy body goes on |
| ZackPlaces.CreatePlace | zackburnerapi/v1/views/places.py:43-54 | create_place with only `get` corrected, so that line 54 is reachable: it checks the City (404), then the body, then always raises; the store never changes |
| ZackPlaces.CreatePlaceAsWritten | zackburnerapi/v1/views/places.py:43-49 | create_place against the written `get` answers 404 for every City before the stray call, and changes nothing |
| ZackPlaces.IdOf | zackburnerapi/v1/views/places.py:60 | `data['user_id']` reaches `get` as a string id, as `None`, or as a non-string |
| ZackPlaces.CreatePlaceTail | zackburnerapi/v1/views/places.py:55-67 | With the corrected `get` for the User: checks "user_id", then "name" (400), then that the User exists (404); success happens exactly for a dict naming a stored User, with a free key; the route's City key overrides any "city_id" |
| ZackPlaces.CreatePlaceTailAsWritten | zackburnerapi/v1/views/places.py:55-62 | With the written `get` for the User: "user_id", then "name" (400), and a body holding both is answered 404 whatever is stored; the store never changes |
| ZackPlaces.CreatePlaceTailDiscrepancy | zackburnerapi/v1/views/places.py:60 | Wherever the tail with the corrected `get` creates the Place, the written one answers 404; elsewhere it answers 404 or exactly as the corrected one |
| ZackPlaces.CreatePlaceTailCounterexample | zackburnerapi/v1/views/places.py:60 | A stored User named by the body: the corrected tail creates the Place, the written one answers 404 |
| ZackPlaces.CreatePlaceIntended | zackburnerapi/v1/views/places.py:43-67 | With the corrected `get` and the stray call removed, the City and body checks are followed by the tail on the parsed body |
| ZackPlaces.CreatedPlaceIsListed | zackburnerapi/v1/views/places.py:64-67 | A Place the intended create adds belongs to the route's City, appears in that City's listing, and the store stays valid |
| ZackPlaces.CreatePlaceDiscrepancy | zackburnerapi/v1/views/places.py:54 | The written and intended create agree before the stray call; wherever the intended one answers 201, the written one answers 500 |
| ZackPlaces.CreatePlaceCounterexample | zackburnerapi/v1/views/places.py:54 | A stored City and User and a body naming both make the written create raise, while the intended one adds the Place |
| ZackPlaces.UpdatePlace | zackburnerapi/v1/views/places.py:70-80 | update_place with only `get` corrected, so that line 80 is reachable: it checks 404, then the body, then always raises; the store never changes |
| ZackPlaces.UpdatePlaceAsWritten | zackburnerapi/v1/views/places.py:70-75 | update_place against the written `get` answers 404 for every key before the stray call, and changes nothing |
| ZackPlaces.UpdatePlaceIntended | zackburnerapi/v1/views/places.py:70-87 | With the stray call removed, the ignore-list merge runs for a stored Place and a non-empty dict |
| ZackPlaces.UpdatePlaceDiscrepancy | zackburnerapi/v1/views/places.py:80 | The written update agrees with the intended one before the stray call; wherever the intended one succeeds, the written one raises |
| ZackPlaces.UpdatePlaceCounterexample | zackburnerapi/v1/views/places.py:80 | A stored Place and a body renaming it make the written update raise, while the intended one renames it |
| ZackPlaces.UpdatePlaceIntendedKeepsOwner | zackburnerapi/v1/views/places.py:81-84 | The intended update never changes a Place's "user_id" or "city_id" and keeps the store valid |
| ApiIndex.Status | api/v1/views/index.py:19-22 | status always answers 200 `{"status": "OK"}` and changes nothing |
| ApiIndex.Stats | api/v1/views/index.py:25-36 | stats has exactly the six keys; each value is the number of stored objects of that class; the store is unchanged |
| ApiIndex.StatsSum | api/v1/views/index.py:25-36 | The six stats add up to `count()`, which is the number of stored objects |
| ApiIndex.StatsAfterCreate | api/v1/views/index.py:29-34 | Creating an object raises exactly its own class's stat by one |
| ZackIndex.Status | zackburnerapi/v1/views/index.py:14-17 | status always answers 200 `{"status": "OK"}` and changes nothing |
| ZackIndex.SomeStats | zackburnerapi/v1/views/index.py:20-31 | some_stats has exactly the same six keys and changes nothing |
| ZackIndex.SomeStatsIsStats | zackburnerapi/v1/views/index.py:23-30 | Counting by class name equals counting by class object, so some_stats answers exactly as the class-based stats |

## Left out

- Views.Lookup: the show, delete and update views, and the User lookup of create_place (zackburnerapi/v1/views/places.py:60, in `ZackPlaces.CreatePlaceTail`), are modelled against the corrected `Storage.Get`, not against `get` as written; what the written code does is stated only by the `...AsWritten` twins, which answer 404 whenever the lookup is reached.
- The SQLAlchemy engine and session are not modelled: `__init__`, `verify_tables_existence`, `reload`, `close`, commit and rollback (models/engine/db_storage.py:34-75, 112-114 and 121-130). They are library calls and database I/O. `save` commits nothing the model can see. The one commit failure modelled is a second row under a taken primary key (`IntegrityError`).
- `BaseModel` and the entity classes are not part of this model.
  - Constructing an object takes the payload's attributes and sets "id" to a key the caller supplies as `newId`. That key stands for the one the constructor draws.
  - `created_at` and `updated_at` are neither generated nor refreshed by `save`.
  - `to_dict` is the row itself.
- The file-based storage engine and the choice of engine at import time are not modelled. Which `storage` object each view package imports is wiring, not logic.
- Flask plumbing is not modelled: the app, blueprints, the teardown hook and startup.
  - `abort(404)` is modelled as the `{"error": "Not found"}` 404 answer of the handler in api/v1/app.py. The Backburnerapi and zackburnerapi applications are not part of this model; their 404 answer is taken to be the same.
  - `abort(400, description=...)` in api/v1/views/users.py is modelled as the same status and message as the JSON answers, although Flask renders it as an HTML page.
- An unparsable body and a body with the wrong content type are both `Malformed`. Newer Flask versions answer the wrong content type with 415 instead of 400; that distinction is not modelled.
- `cls is clss` on strings is modelled as equality, which holds for the interned literals callers pass. An unhashable `cls`, such as a list, would make `get`'s `cls not in classes` raise. `KindArg` has no such case, so that raise is not modelled.
- JSON floating-point numbers are not modelled; numbers are integers.
- ORM cascades are not modelled. An example is deleting a City's Places with the City.
- ZackPlaces.PlacesOf: the order of `city.places` is SQLAlchemy's and is not visible. The model lists a City's Places in table order.
- Storage.Count: the contract bounds the count and gives 0 for an argument that selects no kind. The exact per-kind value is proved separately, in StorageLaws.CountOfKind and StorageLaws.CountsPartition.
- Threaded serving, concurrency and logging are not modelled.

## Findings

| source | as written | input that shows it | evidently intended | confidence | as-written member | corrected member |
|---|---|---|---|---|---|---|
| models/engine/db_storage.py:79 | `cls not in classes` tests the dict's keys (the six names), so a class object is rejected and `get` returns `None` | `get(State, id)` on a stored State, as every view and the storage test do; every show, delete and update view therefore answers 404 (`Views.LookupDiscrepancy`) | accept the class objects as well as the names, as `count` and `all` do | high (not executed) | StorageLaws.GetAfterNew | Storage.Get |
| Backburnerapi/v1/views/users.py:56 | `request.get_json(silent=True)()` calls the parsed body, which raises `TypeError` (500) | POST /users with `{"email": "a@b.c", "password": "pw"}` | `data = request.get_json(silent=True)`, then create the User (201) | high (not executed) | BackburnerUsers.PostUserCounterexample | BackburnerUsers.PostUserIntended |
| Backburnerapi/v1/views/users.py:75 | the same call in put_user raises before the merge | PUT /users/u1 with `{"first_name": "Ada"}` for a stored User u1 (reached only once db_storage.py:79 accepts class objects; until then the view answers 404 first) | merge the payload with the ignore list (200) | high (not executed) | BackburnerUsers.PutUserCounterexample | BackburnerUsers.PutUserIntended |
| zackburnerapi/v1/views/places.py:54 | the same call in create_place raises after the City and body checks | POST /cities/c1/places with `{"user_id": "u1", "name": "Loft"}` for a stored City c1 and User u1 (reached only once db_storage.py:79 accepts class objects; until then the view answers 404 first) | run the user_id, name and user checks, then create the Place (201) | high (not executed) | ZackPlaces.CreatePlaceCounterexample | ZackPlaces.CreatePlaceIntended |
| zackburnerapi/v1/views/places.py:80 | the same call in update_place raises before the merge | PUT /places/p1 with `{"name": "Attic"}` for a stored Place p1 (reached only once db_storage.py:79 accepts class objects; until then the view answers 404 first) | merge the payload with the ignore list (200) | high (not executed) | ZackPlaces.UpdatePlaceCounterexample | ZackPlaces.UpdatePlaceIntended |

=== FILE: api_amenities.dfy ===
/**
 * The Amenity views of the `api` package. Unlike the State and User views, create and
 * update parse the body with the raising `get_json()` inside `try`, so only an
 * unparsable body is "Not a JSON": a body of `null` reaches the `in` test or
 * `.items()` and raises, and an empty object is a valid update that writes nothing.
 *
 * Show, delete and update look the Amenity up with the corrected `get`; each has a
 * `...AsWritten` twin that uses `get` as written and so answers 404 whatever is stored.
 */
module ApiAmenities {
  import opened Py
  import opened Storage
  import opened Views

  /** The attributes an update never writes. */
  const Ignored: set<string> := {"id", "created_at", "updated_at"}

  /** GET /amenities */
  function GetAmenities(s: Store): (r: Step)
    ensures r.store == s && r.response.Reply? && r.response.code == 200 && r.response.payload.Objects?
    ensures forall o :: o in r.response.payload.objs ==> o in s && o.kind == Amenity
    ensures UniqueIds(s) ==> r.response == Reply(200, Objects(RowsOf(s, Amenity)))
  {
    ListAll(s, Amenity)
  }

  /** GET /amenities/<amenity_id> */
  function GetAmenity(s: Store, id: string): (r: Step)
    ensures r.store == s
    ensures !Stored(s, Amenity, id) ==> r.response == NotFound
    ensures r.response.Reply? <==> Stored(s, Amenity, id)
    ensures r.response.Reply? ==>
              r.response.code == 200 && r.response.payload.Object?
              && r.response.payload.obj in s && Names(r.response.payload.obj, Amenity, id)
  {
    Show(s, Amenity, id)
  }

  /** GET /amenities/<amenity_id> against `get` as written: 404 for every key. */
  function GetAmenityAsWritten(s: Store, id: string): (r: Step)
    ensures r == Step(s, NotFound)
  {
    ShowAsWritten(s, Amenity, id)
  }

  /** DELETE /amenities/<amenity_id> */
  function DeleteAmenity(s: Store, id: string): (r: Step)
    ensures !Stored(s, Amenity, id) ==> r == Step(s, NotFound)
    ensures Stored(s, Amenity, id) ==> r.response == Reply(200, EmptyObject)
    ensures forall o :: o in r.store <==> o in s && !Names(o, Amenity, id)
  {
    Destroy(s, Amenity, id)
  }

  /** DELETE /amenities/<amenity_id> against `get` as written: 404 for every key, nothing deleted. */
  function DeleteAmenityAsWritten(s: Store, id: string): (r: Step)
    ensures r == Step(s, NotFound)
  {
    DestroyAsWritten(s, Amenity, id)
  }

  /** Deleting a stored Amenity takes exactly one object away; the next read of it is 404. */
  lemma DeleteAmenityRemovesOne(s: Store, id: string)
    requires Valid(s)
    requires Stored(s, Amenity, id)
    ensures Valid(DeleteAmenity(s, id).store)
    ensures Count(DeleteAmenity(s, id).store, Class(Amenity)) == Count(s, Class(Amenity)) - 1
    ensures GetAmenity(DeleteAmenity(s, id).store, id).response == NotFound
  {
    DestroyLaws(s, Amenity, id, Class(Amenity));
  }

  /** POST /amenities */
  function CreateAmenity(s: Store, body: Body, newId: string): (r: Step)
    ensures body.Malformed? ==> r == Step(s, NotAJson)
    ensures body == Wellformed(JNull) ==> r == Step(s, Raised(TypeError))
    ensures IsDict(body) && "name" !in Fields(body) ==> r == Step(s, Missing("name"))
    ensures r.response.Reply? <==> IsDict(body) && "name" in Fields(body) && !Stored(s, Amenity, newId)
    ensures r.response.Reply? ==> Created(s, Amenity, newId, Fields(body), r)
    ensures !r.response.Reply? ==> r.store == s
  {
    match GetJson(body)
    case Err(_) => Step(s, NotAJson)
    case Ok(data) =>
      match Require("name", data)
      case Stop(resp) => Step(s, resp)
      case Pass(_) =>
        match Kwargs(data)
        case Err(e) => Step(s, Raised(e))
        case Ok(fields) => Create(s, Amenity, newId, fields)
  }

  /** PUT /amenities/<amenity_id>: the 404 answer is decided before the body is read. */
  function UpdateAmenity(s: Store, id: string, body: Body): (r: Step)
    ensures !Stored(s, Amenity, id) ==> r == Step(s, NotFound)
    ensures Stored(s, Amenity, id) && body.Malformed? ==> r == Step(s, NotAJson)
    ensures Stored(s, Amenity, id) && body.Wellformed? && !body.doc.JObject? ==> r == Step(s, Raised(AttributeError))
    ensures r.response.Reply? <==> Stored(s, Amenity, id) && IsDict(body)
    ensures r.response.Reply? ==>
              Lookup(s, Amenity, id).Some? && Amended(s, Lookup(s, Amenity, id).value, Fields(body), Ignored, r)
    ensures !r.response.Reply? ==> r.store == s
  {
    match Lookup(s, Amenity, id)
    case None => Step(s, NotFound)
    case Some(amenity) => UpdateFound(s, amenity, body)
  }

  /** PUT /amenities/<amenity_id> against `get` as written: 404 for every key, and the body is never read. */
  function UpdateAmenityAsWritten(s: Store, id: string, body: Body): (r: Step)
    ensures r == Step(s, NotFound)
  {
    match LookupAsWritten(s, Amenity, id)
    case None => Step(s, NotFound)
    case Some(amenity) => UpdateFound(s, amenity, body)
  }

  /** The update once the Amenity is found: an unparsable body is "Not a JSON", else `.items()` and the merge. */
  function UpdateFound(s: Store, amenity: Row, body: Body): Step {
    match GetJson(body)
    case Err(_) => Step(s, NotAJson)
    case Ok(data) =>
      match Items(data)
      case Err(e) => Step(s, Raised(e))
      case Ok(fields) => Amend(s, amenity, fields, Ignored)
  }

  /**
   * An update whose payload holds only ignored keys (`{}` among them) answers 200 and
   * leaves the store exactly as it was.
   */
  lemma UpdateAmenityWritingNothing(s: Store, id: string, fields: map<string, Json>)
    requires Valid(s)
    requires Stored(s, Amenity, id)
    requires fields.Keys <= Ignored
    ensures UpdateAmenity(s, id, Wellformed(JObject(fields))).response.Reply?
    ensures UpdateAmenity(s, id, Wellformed(JObject(fields))).store == s
  {
    AmendNothing(s, Lookup(s, Amenity, id).value, fields, Ignored);
  }

  /** An update keeps the store valid, changes no count, and the next read sees it. */
  lemma UpdateAmenityLaws(s: Store, id: string, body: Body, key: string)
    requires Valid(s)
    requires UpdateAmenity(s, id, body).response.Reply?
    requires key in Ignored
    ensures var before := Lookup(s, Amenity, id).value;
            var after := UpdateAmenity(s, id, body).response.payload.obj;
            (key in after.attrs <==> key in before.attrs) && (key in before.attrs ==> after.attrs[key] == before.attrs[key])
    ensures Valid(UpdateAmenity(s, id, body).store)
    ensures Count(UpdateAmenity(s, id, body).store, NoKind) == Count(s, NoKind)
    ensures GetAmenity(UpdateAmenity(s, id, body).store, id).response == UpdateAmenity(s, id, body).response
  {
    var r := UpdateAmenity(s, id, body);
    AmendedLaws(s, Lookup(s, Amenity, id).value, Fields(body), Ignored, r, NoKind);
  }
}

=== FILE: api_index.dfy ===
/** The `status` and `stats` views of the `api` package, which count by class object. */
module ApiIndex {
  import opened Py
  import opened Storage
  import opened Views
  import StorageLaws

  /** The six keys of the stats answer. */
  const StatKeys: set<string> := {"amenities", "cities", "places", "reviews", "states", "users"}

  /** The stats key a class's count goes under. */
  function StatKey(k: Kind): (key: string)
    ensures key in StatKeys
  {
    match k
    case Amenity => "amenities"
    case City => "cities"
    case Place => "places"
    case Review => "reviews"
    case State => "states"
    case User => "users"
  }

  /** Each stats key belongs to exactly one class. */
  lemma StatKeyInjective(a: Kind, b: Kind)
    requires StatKey(a) == StatKey(b)
    ensures a == b
  {
  }

  /** GET /status: always the same answer, and nothing is read or written. */
  function Status(s: Store): (r: Step)
    ensures r.store == s
    ensures r.response == Reply(200, StatusOk)
  {
    Step(s, Reply(200, StatusOk))
  }

  /** GET /stats: `storage.count(Cls)` for each of the six classes. */
  function Stats(s: Store): (r: Step)
    ensures r.store == s
    ensures r.response.Reply? && r.response.code == 200 && r.response.payload.Counts?
    ensures r.response.payload.counts.Keys == StatKeys
    ensures forall k: Kind :: r.response.payload.counts[StatKey(k)] == |RowsOf(s, k)|
  {
    ClassTallyCounts(s);
    Step(s, Reply(200, Counts(ClassTally(s))))
  }

  /** The stats answer for six counts given in the order of `classes`. */
  function Tally(amenities: nat, cities: nat, places: nat, reviews: nat, states: nat, users: nat): map<string, nat> {
    map["amenities" := amenities, "cities" := cities, "places" := places,
        "reviews" := reviews, "states" := states, "users" := users]
  }

  lemma TallyLookup(amenities: nat, cities: nat, places: nat, reviews: nat, states: nat, users: nat)
    ensures var t := Tally(amenities, cities, places, reviews, states, users);
            && t.Keys == StatKeys
            && t["amenities"] == amenities && t["cities"] == cities && t["places"] == places
            && t["reviews"] == reviews && t["states"] == states && t["users"] == users
  {
  }

  /** `storage.count(Cls)` for each of the six classes. */
  function ClassTally(s: Store): map<string, nat> {
    Tally(Count(s, Class(Amenity)), Count(s, Class(City)), Count(s, Class(Place)),
          Count(s, Class(Review)), Count(s, Class(State)), Count(s, Class(User)))
  }

  lemma ClassTallyCounts(s: Store)
    ensures ClassTally(s).Keys == StatKeys
    ensures forall k: Kind :: ClassTally(s)[StatKey(k)] == |RowsOf(s, k)|
  {
    TallyLookup(Count(s, Class(Amenity)), Count(s, Class(City)), Count(s, Class(Place)),
                Count(s, Class(Review)), Count(s, Class(State)), Count(s, Class(User)));
    forall k: Kind ensures ClassTally(s)[StatKey(k)] == |RowsOf(s, k)| {
      StorageLaws.CountOfKind(s, k);
    }
  }

  /** The six stats add up to `count()`, which is the number of stored objects. */
  lemma StatsSum(s: Store)
    ensures var c := Stats(s).response.payload.counts;
            c["amenities"] + c["cities"] + c["places"] + c["reviews"] + c["states"] + c["users"]
            == Count(s, NoKind) == |s|
  {
    StorageLaws.CountsPartition(s);
  }

  /** Creating an object raises exactly its class's stat by one. */
  lemma StatsAfterCreate(s: Store, k: Kind, newId: string, fields: map<string, Json>, k': Kind)
    requires Valid(s)
    requires !Stored(s, k, newId)
    ensures var before := Stats(s).response.payload.counts;
            var after := Stats(Create(s, k, newId, fields).store).response.payload.counts;
            after[StatKey(k')] == before[StatKey(k')] + (if k' == k then 1 else 0)
  {
    CreatedLaws(s, k, newId, fields, Create(s, k, newId, fields), Class(k'));
    StorageLaws.CountOfKind(s, k');
    StorageLaws.CountOfKind(Create(s, k, newId, fields).store, k');
  }
}

=== FILE: api_states.dfy ===
/**
 * The State views of the `api` package: list, show, delete, create and update.
 *
 * Show, delete and update look the State up with the corrected `get`; each has a
 * `...AsWritten` twin that uses `get` as written and so answers 404 whatever is stored.
 */
module ApiStates {
  import opened Py
  import opened Storage
  import opened Views

  /** The attributes an update never writes. */
  const Ignored: set<string> := {"id", "created_at", "updated_at"}

  /** GET /states */
  function GetStates(s: Store): (r: Step)
    ensures r.store == s && r.response.Reply? && r.response.code == 200 && r.response.payload.Objects?
    ensures forall o :: o in r.response.payload.objs ==> o in s && o.kind == State
    ensures UniqueIds(s) ==> r.response == Reply(200, Objects(RowsOf(s, State)))
  {
    ListAll(s, State)
  }

  /** GET /states/<state_id> */
  function GetState(s: Store, id: string): (r: Step)
    ensures r.store == s
    ensures !Stored(s, State, id) ==> r.response == NotFound
    ensures r.response.Reply? <==> Stored(s, State, id)
    ensures r.response.Reply? ==>
              r.response.code == 200 && r.response.payload.Object?
              && r.response.payload.obj in s && Names(r.response.payload.obj, State, id)
  {
    Show(s, State, id)
  }

  /** GET /states/<state_id> against `get` as written: 404 for every key. */
  function GetStateAsWritten(s: Store, id: string): (r: Step)
    ensures r == Step(s, NotFound)
  {
    ShowAsWritten(s, State, id)
  }

  /** DELETE /states/<state_id> */
  function DeleteState(s: Store, id: string): (r: Step)
    ensures !Stored(s, State, id) ==> r == Step(s, NotFound)
    ensures Stored(s, State, id) ==> r.response == Reply(200, EmptyObject)
    ensures forall o :: o in r.store <==> o in s && !Names(o, State, id)
  {
    Destroy(s, State, id)
  }

  /** DELETE /states/<state_id> against `get` as written: 404 for every key, nothing deleted. */
  function DeleteStateAsWritten(s: Store, id: string): (r: Step)
    ensures r == Step(s, NotFound)
  {
    DestroyAsWritten(s, State, id)
  }

  /**
   * POST /states. The silent parse turns an unparsable body into `None`, which is the
   * only thing the first check rejects; `'name' not in data` may itself raise, and so
   * may `State(**data)` when `data` is not a dict. `newId` is the key the new object gets.
   */
  function CreateState(s: Store, body: Body, newId: string): (r: Step)
    ensures GetJsonSilent(body).JNull? ==> r == Step(s, NotAJson)
    ensures IsDict(body) && "name" !in Fields(body) ==> r == Step(s, Missing("name"))
    ensures r.response.Reply? <==> IsDict(body) && "name" in Fields(body) && !Stored(s, State, newId)
    ensures r.response.Reply? ==> Created(s, State, newId, Fields(body), r)
    ensures !r.response.Reply? ==> r.store == s
  {
    var data := GetJsonSilent(body);
    if data.JNull? then Step(s, NotAJson)
    else
      match Require("name", data)
      case Stop(resp) => Step(s, resp)
      case Pass(_) =>
        match Kwargs(data)
        case Err(e) => Step(s, Raised(e))
        case Ok(fields) => Create(s, State, newId, fields)
  }

  /** A successful create adds exactly one State and nothing else, and keeps the store valid. */
  lemma CreateStateAddsOne(s: Store, body: Body, newId: string, k: Kind)
    requires Valid(s)
    requires CreateState(s, body, newId).response.Reply?
    ensures Valid(CreateState(s, body, newId).store)
    ensures Count(CreateState(s, body, newId).store, Class(k)) == Count(s, Class(k)) + (if k == State then 1 else 0)
    ensures Count(CreateState(s, body, newId).store, NoKind) == Count(s, NoKind) + 1
  {
    var r := CreateState(s, body, newId);
    CreatedLaws(s, State, newId, Fields(body), r, Class(k));
    CreatedLaws(s, State, newId, Fields(body), r, NoKind);
  }

  /**
   * PUT /states/<state_id>. The lookup comes first; then any falsy body (an
   * unparsable one, `{}`, `[]`, `0`, ...) is "Not a JSON"; `data.items()` raises on a
   * truthy body that is not a dict.
   */
  function UpdateState(s: Store, id: string, body: Body): (r: Step)
    ensures !Stored(s, State, id) ==> r == Step(s, NotFound)
    ensures Stored(s, State, id) && !Truthy(GetJsonSilent(body)) ==> r == Step(s, NotAJson)
    ensures r.response.Reply? <==> Stored(s, State, id) && IsDict(body) && |Fields(body)| > 0
    ensures r.response.Reply? ==>
              Lookup(s, State, id).Some? && Amended(s, Lookup(s, State, id).value, Fields(body), Ignored, r)
    ensures !r.response.Reply? ==> r.store == s
  {
    match Lookup(s, State, id)
    case None => Step(s, NotFound)
    case Some(state) => UpdateFound(s, state, body)
  }

  /** PUT /states/<state_id> against `get` as written: 404 for every key, and the body is never read. */
  function UpdateStateAsWritten(s: Store, id: string, body: Body): (r: Step)
    ensures r == Step(s, NotFound)
  {
    match LookupAsWritten(s, State, id)
    case None => Step(s, NotFound)
    case Some(state) => UpdateFound(s, state, body)
  }

  /** The update once the State is found: a falsy body is "Not a JSON", else the merge. */
  function UpdateFound(s: Store, state: Row, body: Body): Step {
    var data := GetJsonSilent(body);
    if !Truthy(data) then Step(s, NotAJson)
    else
      match Items(data)
      case Err(e) => Step(s, Raised(e))
      case Ok(fields) => Amend(s, state, fields, Ignored)
  }

  /** An update never writes "id", "created_at" or "updated_at", changes no count, and keeps the store valid. */
  lemma UpdateStateKeepsIgnored(s: Store, id: string, body: Body, key: string)
    requires Valid(s)
    requires UpdateState(s, id, body).response.Reply?
    requires key in Ignored
    ensures var before := Lookup(s, State, id).value;
            var after := UpdateState(s, id, body).response.payload.obj;
            (key in after.attrs <==> key in before.attrs) && (key in before.attrs ==> after.attrs[key] == before.attrs[key])
    ensures Valid(UpdateState(s, id, body).store)
    ensures Count(UpdateState(s, id, body).store, NoKind) == Count(s, NoKind)
  {
    var r := UpdateState(s, id, body);
    AmendedLaws(s, Lookup(s, State, id).value, Fields(body), Ignored, r, NoKind);
  }
}

=== FILE: api_users.dfy ===
/**
 * The User views of the `api` package: list, show, delete, create and update.
 *
 * Show, delete and update look the User up with the corrected `get`; each has a
 * `...AsWritten` twin that uses `get` as written and so answers 404 whatever is stored.
 */
module ApiUsers {
  import opened Py
  import opened Storage
  import opened Views

  /** The attributes an update never writes: the e-mail address is fixed once created. */
  const Ignored: set<string> := {"id", "email", "created_at", "updated_at"}

  /** GET /users */
  function GetUsers(s: Store): (r: Step)
    ensures r.store == s && r.response.Reply? && r.response.code == 200 && r.response.payload.Objects?
    ensures forall o :: o in r.response.payload.objs ==> o in s && o.kind == User
    ensures UniqueIds(s) ==> r.response == Reply(200, Objects(RowsOf(s, User)))
  {
    ListAll(s, User)
  }

  /** GET /users/<user_id> */
  function GetUser(s: Store, id: string): (r: Step)
    ensures r.store == s
    ensures !Stored(s, User, id) ==> r.response == NotFound
    ensures r.response.Reply? <==> Stored(s, User, id)
    ensures r.response.Reply? ==>
              r.response.code == 200 && r.response.payload.Object?
              && r.response.payload.obj in s && Names(r.response.payload.obj, User, id)
  {
    Show(s, User, id)
  }

  /** GET /users/<user_id> against `get` as written: 404 for every key. */
  function GetUserAsWritten(s: Store, id: string): (r: Step)
    ensures r == Step(s, NotFound)
  {
    ShowAsWritten(s, User, id)
  }

  /** DELETE /users/<user_id> */
  function DeleteUser(s: Store, id: string): (r: Step)
    ensures !Stored(s, User, id) ==> r == Step(s, NotFound)
    ensures Stored(s, User, id) ==> r.response == Reply(200, EmptyObject)
    ensures forall o :: o in r.store <==> o in s && !Names(o, User, id)
  {
    Destroy(s, User, id)
  }

  /** DELETE /users/<user_id> against `get` as written: 404 for every key, nothing deleted. */
  function DeleteUserAsWritten(s: Store, id: string): (r: Step)
    ensures r == Step(s, NotFound)
  {
    DestroyAsWritten(s, User, id)
  }

  /** Deleting a stored User takes exactly one object away and keeps the store valid. */
  lemma DeleteUserRemovesOne(s: Store, id: string)
    requires Valid(s)
    requires Stored(s, User, id)
    ensures Valid(DeleteUser(s, id).store)
    ensures Count(DeleteUser(s, id).store, Class(User)) == Count(s, Class(User)) - 1
    ensures Count(DeleteUser(s, id).store, NoKind) == Count(s, NoKind) - 1
  {
    DestroyLaws(s, User, id, Class(User));
    DestroyLaws(s, User, id, NoKind);
  }

  /**
   * The checks of POST /users, in order: a falsy body (an unparsable one included),
   * then "email", then "password"; the first that fails decides the response.
   */
  function CreateUserChecks(body: Body): (g: Gate)
    ensures !Truthy(GetJsonSilent(body)) ==> g == Stop(NotAJson)
    ensures IsDict(body) && |Fields(body)| > 0 && "email" !in Fields(body) ==> g == Stop(Missing("email"))
    ensures IsDict(body) && "email" in Fields(body) && "password" !in Fields(body) ==> g == Stop(Missing("password"))
    ensures g.Pass? ==> g.data == GetJsonSilent(body) && Truthy(g.data)
    ensures IsDict(body) && "email" in Fields(body) && "password" in Fields(body) ==> g.Pass?
  {
    var data := GetJsonSilent(body);
    if !Truthy(data) then Stop(NotAJson)
    else
      match Require("email", data)
      case Stop(resp) => Stop(resp)
      case Pass(_) => Require("password", data)
  }

  /** POST /users: `User(**data)`, `storage.new`, `storage.save`. */
  function CreateUser(s: Store, body: Body, newId: string): (r: Step)
    ensures CreateUserChecks(body).Stop? ==> r == Step(s, CreateUserChecks(body).response)
    ensures r.response.Reply? <==>
              IsDict(body) && "email" in Fields(body) && "password" in Fields(body) && !Stored(s, User, newId)
    ensures r.response.Reply? ==> Created(s, User, newId, Fields(body), r)
    ensures !r.response.Reply? ==> r.store == s
  {
    match CreateUserChecks(body)
    case Stop(resp) => Step(s, resp)
    case Pass(data) =>
      match Kwargs(data)
      case Err(e) => Step(s, Raised(e))
      case Ok(fields) => Create(s, User, newId, fields)
  }

  /** A successful create adds exactly one User and keeps the store valid. */
  lemma CreateUserAddsOne(s: Store, body: Body, newId: string, k: Kind)
    requires Valid(s)
    requires CreateUser(s, body, newId).response.Reply?
    ensures Valid(CreateUser(s, body, newId).store)
    ensures Count(CreateUser(s, body, newId).store, Class(k)) == Count(s, Class(k)) + (if k == User then 1 else 0)
    ensures GetUser(CreateUser(s, body, newId).store, newId).response.Reply?
  {
    var r := CreateUser(s, body, newId);
    CreatedLaws(s, User, newId, Fields(body), r, Class(k));
  }

  /** PUT /users/<user_id>: lookup, then a falsy body is "Not a JSON", then the merge. */
  function UpdateUser(s: Store, id: string, body: Body): (r: Step)
    ensures !Stored(s, User, id) ==> r == Step(s, NotFound)
    ensures Stored(s, User, id) && !Truthy(GetJsonSilent(body)) ==> r == Step(s, NotAJson)
    ensures r.response.Reply? <==> Stored(s, User, id) && IsDict(body) && |Fields(body)| > 0
    ensures r.response.Reply? ==>
              Lookup(s, User, id).Some? && Amended(s, Lookup(s, User, id).value, Fields(body), Ignored, r)
    ensures !r.response.Reply? ==> r.store == s
  {
    match Lookup(s, User, id)
    case None => Step(s, NotFound)
    case Some(user) => UpdateFound(s, user, body)
  }

  /** PUT /users/<user_id> against `get` as written: 404 for every key, and the body is never read. */
  function UpdateUserAsWritten(s: Store, id: string, body: Body): (r: Step)
    ensures r == Step(s, NotFound)
  {
    match LookupAsWritten(s, User, id)
    case None => Step(s, NotFound)
    case Some(user) => UpdateFound(s, user, body)
  }

  /** The update once the User is found: a falsy body is "Not a JSON", else the merge. */
  function UpdateFound(s: Store, user: Row, body: Body): Step {
    var data := GetJsonSilent(body);
    if !Truthy(data) then Step(s, NotAJson)
    else
      match Items(data)
      case Err(e) => Step(s, Raised(e))
      case Ok(fields) => Amend(s, user, fields, Ignored)
  }

  /** An update never changes a User's e-mail address, and the next read of the User sees the update. */
  lemma UpdateUserKeepsEmail(s: Store, id: string, body: Body)
    requires Valid(s)
    requires UpdateUser(s, id, body).response.Reply?
    ensures var before := Lookup(s, User, id).value;
            var after := UpdateUser(s, id, body).response.payload.obj;
            ("email" in after.attrs <==> "email" in before.attrs)
            && ("email" in before.attrs ==> after.attrs["email"] == before.attrs["email"])
    ensures Valid(UpdateUser(s, id, body).store)
    ensures GetUser(UpdateUser(s, id, body).store, id).response == UpdateUser(s, id, body).response
  {
    var r := UpdateUser(s, id, body);
    AmendedLaws(s, Lookup(s, User, id).value, Fields(body), Ignored, r, NoKind);
  }
}

=== FILE: backburner_users.dfy ===
/**
 * The User views of the `Backburnerapi` package. They read the body with the raising
 * `get_json()`, so an unparsable body escapes as a 400 `BadRequest` before any check of
 * theirs. After their checks, create and update call the parsed body as a function
 * (`request.get_json(silent=True)()`), which raises `TypeError` on every value JSON can
 * produce: neither view can succeed. `PostUserIntended` and `PutUserIntended` model the
 * same views without the stray call.
 *
 * The lookup-based views are given twice. `GetUser`, `DeleteUser` and `PutUser` look the
 * User up with the corrected `get`, so that the lines after the lookup are reachable;
 * the `...AsWritten` twins use `get` as written, which answers `None` for the class
 * `User`, so they answer 404 whatever is stored.
 */
module BackburnerUsers {
  import opened Py
  import opened Storage
  import opened Views

  /** The attributes an update is meant never to write. */
  const Ignored: set<string> := {"id", "email", "created_at", "updated_at"}

  /** GET /users */
  function GetUsers(s: Store): (r: Step)
    ensures r.store == s && r.response.Reply? && r.response.code == 200 && r.response.payload.Objects?
    ensures forall o :: o in r.response.payload.objs ==> o in s && o.kind == User
    ensures UniqueIds(s) ==> r.response.payload.objs == RowsOf(s, User)
    ensures UniqueIds(s) ==> |r.response.payload.objs| == Count(s, Class(User))
  {
    ListAll(s, User)
  }

  /** GET /users/<user_id> */
  function GetUser(s: Store, id: string): (r: Step)
    ensures r.store == s
    ensures !Stored(s, User, id) ==> r.response == NotFound
    ensures r.response.Reply? <==> Stored(s, User, id)
    ensures r.response.Reply? ==>
              r.response.code == 200 && r.response.payload.Object?
              && r.response.payload.obj in s && Names(r.response.payload.obj, User, id)
  {
    Show(s, User, id)
  }

  /** GET /users/<user_id> against `get` as written: 404 for every key. */
  function GetUserAsWritten(s: Store, id: string): (r: Step)
    ensures r == Step(s, NotFound)
  {
    ShowAsWritten(s, User, id)
  }

  /** DELETE /users/<user_id> */
  function DeleteUser(s: Store, id: string): (r: Step)
    ensures !Stored(s, User, id) ==> r == Step(s, NotFound)
    ensures Stored(s, User, id) ==> r.response == Reply(200, EmptyObject)
    ensures forall o :: o in r.store <==> o in s && !Names(o, User, id)
  {
    Destroy(s, User, id)
  }

  /** DELETE /users/<user_id> against `get` as written: 404 for every key, nothing deleted. */
  function DeleteUserAsWritten(s: Store, id: string): (r: Step)
    ensures r == Step(s, NotFound)
  {
    DestroyAsWritten(s, User, id)
  }

  /** Deleting a stored User takes exactly one object away; the next read of it is 404. */
  lemma DeleteUserRemovesOne(s: Store, id: string)
    requires Valid(s)
    requires Stored(s, User, id)
    ensures Valid(DeleteUser(s, id).store)
    ensures Count(DeleteUser(s, id).store, NoKind) == Count(s, NoKind) - 1
    ensures GetUser(DeleteUser(s, id).store, id).response == NotFound
  {
    DestroyLaws(s, User, id, NoKind);
  }

  /** The checks of POST /users: parse (raising), falsy body, "email", "password". */
  function PostUserChecks(body: Body): (g: Gate)
    ensures body.Malformed? ==> g == Stop(Raised(BadRequest))
    ensures body.Wellformed? && !Truthy(body.doc) ==> g == Stop(NotAJson)
    ensures IsDict(body) && |Fields(body)| > 0 && "email" !in Fields(body) ==> g == Stop(Missing("email"))
    ensures IsDict(body) && "email" in Fields(body) && "password" !in Fields(body) ==> g == Stop(Missing("password"))
    ensures g.Pass? ==> body.Wellformed? && g.data == body.doc && Truthy(g.data)
    ensures IsDict(body) && "email" in Fields(body) && "password" in Fields(body) ==> g.Pass?
  {
    match GetJson(body)
    case Err(e) => Stop(Raised(e))
    case Ok(data) =>
      if !Truthy(data) then Stop(NotAJson)
      else
        match Require("email", data)
        case Stop(resp) => Stop(resp)
        case Pass(_) => Require("password", data)
  }

  /** POST /users as written: whatever the checks let through raises at the stray call. */
  function PostUser(s: Store, body: Body): (r: Step)
    ensures r.store == s
    ensures !r.response.Reply?
    ensures PostUserChecks(body).Stop? ==> r.response == PostUserChecks(body).response
    ensures PostUserChecks(body).Pass? ==> r.response == Raised(TypeError)
  {
    match PostUserChecks(body)
    case Stop(resp) => Step(s, resp)
    case Pass(_) => Step(s, Raised(TypeError))
  }

  /** POST /users as evidently intended: `User(**data)` and `save()` after the checks. */
  function PostUserIntended(s: Store, body: Body, newId: string): (r: Step)
    ensures PostUserChecks(body).Stop? ==> r == Step(s, PostUserChecks(body).response)
    ensures r.response.Reply? <==>
              IsDict(body) && "email" in Fields(body) && "password" in Fields(body) && !Stored(s, User, newId)
    ensures r.response.Reply? ==> Created(s, User, newId, Fields(body), r)
    ensures !r.response.Reply? ==> r.store == s
  {
    match PostUserChecks(body)
    case Stop(resp) => Step(s, resp)
    case Pass(data) =>
      match Kwargs(data)
      case Err(e) => Step(s, Raised(e))
      case Ok(fields) => Create(s, User, newId, fields)
  }

  /**
   * The two versions answer alike on every request the checks stop, and differ on
   * every well-formed create: there the written view raises (500) where the intended
   * one adds the User (201).
   */
  lemma PostUserDiscrepancy(s: Store, body: Body, newId: string)
    ensures PostUserChecks(body).Stop? ==> PostUser(s, body) == PostUserIntended(s, body, newId)
    ensures PostUserIntended(s, body, newId).response.Reply? ==>
              Code(PostUser(s, body).response) == 500 && Code(PostUserIntended(s, body, newId).response) == 201
  {
  }

  /** A concrete request that shows it: an empty store and a body with both required keys. */
  lemma PostUserCounterexample()
    ensures var body := Wellformed(JObject(map["email" := JStr("a@b.c"), "password" := JStr("pw")]));
            PostUser([], body) == Step([], Raised(TypeError))
            && PostUserIntended([], body, "u1").response.Reply?
            && PostUserIntended([], body, "u1").store != []
  {
    var body := Wellformed(JObject(map["email" := JStr("a@b.c"), "password" := JStr("pw")]));
    assert "email" in Fields(body) && "password" in Fields(body);
    assert !Stored([], User, "u1");
  }

  /**
   * PUT /users/<user_id> as written once the User is found, which takes the corrected
   * `get`: lookup, parse (raising), falsy body, then the stray call.
   */
  function PutUser(s: Store, id: string, body: Body): (r: Step)
    ensures r.store == s
    ensures !r.response.Reply?
    ensures !Stored(s, User, id) ==> r.response == NotFound
    ensures Stored(s, User, id) && body.Malformed? ==> r.response == Raised(BadRequest)
    ensures Stored(s, User, id) && body.Wellformed? && !Truthy(body.doc) ==> r.response == NotAJson
    ensures Stored(s, User, id) && body.Wellformed? && Truthy(body.doc) ==> r.response == Raised(TypeError)
  {
    match Lookup(s, User, id)
    case None => Step(s, NotFound)
    case Some(_) => PutFound(s, body)
  }

  /** PUT /users/<user_id> against `get` as written: 404 for every key, and the body is never read. */
  function PutUserAsWritten(s: Store, id: string, body: Body): (r: Step)
    ensures r == Step(s, NotFound)
  {
    match LookupAsWritten(s, User, id)
    case None => Step(s, NotFound)
    case Some(_) => PutFound(s, body)
  }

  /** The written update once the User is found: parse (raising), falsy body, then the stray call. */
  function PutFound(s: Store, body: Body): Step {
    match GetJson(body)
    case Err(e) => Step(s, Raised(e))
    case Ok(data) =>
      if !Truthy(data) then Step(s, NotAJson)
      else Step(s, Raised(TypeError))
  }

  /** PUT /users/<user_id> as evidently intended: the ignore-list merge runs. */
  function PutUserIntended(s: Store, id: string, body: Body): (r: Step)
    ensures !Stored(s, User, id) ==> r == Step(s, NotFound)
    ensures Stored(s, User, id) && body.Malformed? ==> r == Step(s, Raised(BadRequest))
    ensures Stored(s, User, id) && body.Wellformed? && !Truthy(body.doc) ==> r == Step(s, NotAJson)
    ensures r.response.Reply? <==> Stored(s, User, id) && IsDict(body) && |Fields(body)| > 0
    ensures r.response.Reply? ==>
              Lookup(s, User, id).Some? && Amended(s, Lookup(s, User, id).value, Fields(body), Ignored, r)
    ensures !r.response.Reply? ==> r.store == s
  {
    match Lookup(s, User, id)
    case None => Step(s, NotFound)
    case Some(user) =>
      match GetJson(body)
      case Err(e) => Step(s, Raised(e))
      case Ok(data) =>
        if !Truthy(data) then Step(s, NotAJson)
        else
          match Items(data)
          case Err(e) => Step(s, Raised(e))
          case Ok(fields) => Amend(s, user, fields, Ignored)
  }

  /**
   * The written update answers like the intended one up to the stray call; past it,
   * the intended one applies the merge where the written one raises.
   */
  lemma PutUserDiscrepancy(s: Store, id: string, body: Body)
    ensures !PutUserIntended(s, id, body).response.Reply? && !(Stored(s, User, id) && body.Wellformed? && Truthy(body.doc))
            ==> PutUser(s, id, body) == PutUserIntended(s, id, body)
    ensures PutUserIntended(s, id, body).response.Reply? ==> PutUser(s, id, body) == Step(s, Raised(TypeError))
  {
  }

  /** A concrete request that shows it: a stored User and a body that sets a first name. */
  lemma PutUserCounterexample()
    ensures var s := [Row(User, "u1", map["id" := JStr("u1")])];
            var body := Wellformed(JObject(map["first_name" := JStr("Ada")]));
            PutUser(s, "u1", body) == Step(s, Raised(TypeError))
            && PutUserIntended(s, "u1", body).response.Reply?
            && PutUserIntended(s, "u1", body).response.payload.obj.attrs["first_name"] == JStr("Ada")
  {
    var s := [Row(User, "u1", map["id" := JStr("u1")])];
    var body := Wellformed(JObject(map["first_name" := JStr("Ada")]));
    assert Names(s[0], User, "u1");
    assert Fields(body)["first_name"] == JStr("Ada");
  }

  /** The intended update never changes a User's e-mail address and keeps the store valid. */
  lemma PutUserIntendedKeepsEmail(s: Store, id: string, body: Body)
    requires Valid(s)
    requires PutUserIntended(s, id, body).response.Reply?
    ensures var before := Lookup(s, User, id).value;
            var after := PutUserIntended(s, id, body).response.payload.obj;
            ("email" in after.attrs <==> "email" in before.attrs)
            && ("email" in before.attrs ==> after.attrs["email"] == before.attrs["email"])
    ensures Valid(PutUserIntended(s, id, body).store)
  {
    var r := PutUserIntended(s, id, body);
    AmendedLaws(s, Lookup(s, User, id).value, Fields(body), Ignored, r, NoKind);
  }
}

=== FILE: py.dfy ===
/**
 * The few Python and Flask behaviours the views depend on: the JSON values a
 * request body parses to, how `request.get_json` treats a body it cannot parse,
 * truthiness, the `in` operator, subscripting, `.items()` and `**` unpacking.
 * Each operation that Python would reject with an exception returns `Err`.
 */
module Py {
  import opened Wrappers

  /** A parsed JSON document; `JNull` is Python's `None`. Floating point numbers are not modelled. */
  datatype Json =
    | JNull
    | JBool(b: bool)
    | JNum(n: int)
    | JStr(s: string)
    | JArray(items: seq<Json>)
    | JObject(fields: map<string, Json>)

  /** A request body as Flask sees it: parseable as JSON or not (bad syntax or wrong content type). */
  datatype Body = Malformed | Wellformed(doc: Json)

  /** The exceptions a view can let escape. */
  datatype PyError =
    | BadRequest      // raised by `request.get_json()` on a body it cannot parse
    | TypeError       // `'k' in 5`, `Cls(**[...])`, `['k']['k']`, calling a dict
    | AttributeError  // `.items()` on something that is not a dict
    | KeyError        // `d['k']` on a dict without 'k'
    | IntegrityError  // a commit that would store a second row under a taken primary key

  /** The HTTP status Flask answers with when the exception escapes the view. */
  function StatusOf(e: PyError): (code: int)
    ensures code == 400 <==> e == BadRequest
    ensures code == 400 || code == 500
  {
    if e == BadRequest then 400 else 500
  }

  /** Python truthiness: `None`, `False`, `0`, and empty strings, lists and dicts are false. */
  predicate Truthy(v: Json) {
    match v
    case JNull => false
    case JBool(b) => b
    case JNum(n) => n != 0
    case JStr(s) => |s| > 0
    case JArray(a) => |a| > 0
    case JObject(m) => |m| > 0
  }

  /** `request.get_json(silent=True)`: a body that cannot be parsed reads as `None`. */
  function GetJsonSilent(b: Body): (v: Json)
    ensures b.Malformed? ==> v == JNull
    ensures b.Wellformed? ==> v == b.doc
  {
    match b
    case Malformed => JNull
    case Wellformed(doc) => doc
  }

  /** `request.get_json()`: a body that cannot be parsed raises. */
  function GetJson(b: Body): (r: Result<Json, PyError>)
    ensures r.Err? <==> b.Malformed?
    ensures r.Err? ==> r.error == BadRequest
    ensures r.Ok? ==> r.value == GetJsonSilent(b)
  {
    match b
    case Malformed => Err(BadRequest)
    case Wellformed(doc) => Ok(doc)
  }

  /** `needle` occurs in `hay` starting at index `i`. */
  predicate OccursAt(needle: string, hay: string, i: int) {
    0 <= i <= |hay| - |needle| && hay[i..i + |needle|] == needle
  }

  /** `needle in hay` for two Python strings. */
  predicate IsSubstring(needle: string, hay: string) {
    exists i | 0 <= i <= |hay| - |needle| :: OccursAt(needle, hay, i)
  }

  /** `key in v`: dict keys, list elements, or a substring test; numbers, booleans and `None` raise. */
  function Contains(key: string, v: Json): (r: Result<bool, PyError>)
    ensures r.Err? <==> v.JNull? || v.JBool? || v.JNum?
    ensures r.Err? ==> r.error == TypeError
    ensures v.JObject? ==> r == Ok(key in v.fields)
    ensures v.JArray? ==> r == Ok(JStr(key) in v.items)
  {
    match v
    case JObject(m) => Ok(key in m)
    case JArray(a) => Ok(JStr(key) in a)
    case JStr(s) => Ok(IsSubstring(key, s))
    case _ => Err(TypeError)
  }

  /** `v[key]` with a string key: only a dict holding the key answers. */
  function Subscript(v: Json, key: string): (r: Result<Json, PyError>)
    ensures r.Ok? <==> v.JObject? && key in v.fields
    ensures r.Ok? ==> r.value == v.fields[key]
  {
    match v
    case JObject(m) => if key in m then Ok(m[key]) else Err(KeyError)
    case _ => Err(TypeError)
  }

  /** `v.items()`: only a dict has the method. */
  function Items(v: Json): (r: Result<map<string, Json>, PyError>)
    ensures r.Ok? <==> v.JObject?
    ensures r.Ok? ==> r.value == v.fields
    ensures r.Err? ==> r.error == AttributeError
  {
    match v
    case JObject(m) => Ok(m)
    case _ => Err(AttributeError)
  }

  /** `Cls(**v)`: only a mapping can be unpacked into keyword arguments. */
  function Kwargs(v: Json): (r: Result<map<string, Json>, PyError>)
    ensures r.Ok? <==> v.JObject?
    ensures r.Ok? ==> r.value == v.fields
    ensures r.Err? ==> r.error == TypeError
  {
    match v
    case JObject(m) => Ok(m)
    case _ => Err(TypeError)
  }
}

=== FILE: storage.dfy ===
/**
 * The storage facade `DBStorage` over an abstract table store. The ORM session is
 * not modelled: a store is the sequence of live rows in table order, a query for one
 * class is the subsequence of its rows, and `save` commits nothing the model can see.
 */
module Storage {
  import opened Wrappers
  import opened Py

  /** The six entity kinds. */
  datatype Kind = Amenity | City | Place | Review | State | User

  /** The module-level `classes` dict, in its declaration order. */
  const Kinds: seq<Kind> := [Amenity, City, Place, Review, State, User]

  /** The key of `classes` for a kind, which is also the class's `__name__`. */
  function ClassName(k: Kind): string {
    match k
    case Amenity => "Amenity"
    case City => "City"
    case Place => "Place"
    case Review => "Review"
    case State => "State"
    case User => "User"
  }

  /** `classes[name]`, or None when `name` is not one of its keys. */
  function KindNamed(name: string): (r: Option<Kind>)
    ensures r.Some? ==> ClassName(r.value) == name
    ensures r.None? ==> forall k: Kind :: ClassName(k) != name
  {
    if name == "Amenity" then Some(Amenity)
    else if name == "City" then Some(City)
    else if name == "Place" then Some(Place)
    else if name == "Review" then Some(Review)
    else if name == "State" then Some(State)
    else if name == "User" then Some(User)
    else None
  }

  /**
   * What a caller can pass as `cls`: nothing, a string, one of the six class objects,
   * or any other (hashable) value such as `BaseModel` or a number.
   */
  datatype KindArg = NoKind | Name(name: string) | Class(kind: Kind) | Foreign

  /** What a caller can pass as `id`: nothing, a string, or a value of another type. */
  datatype IdArg = NoId | IdStr(id: string) | NotStr

  /** One live object: its class, its primary key, and its attribute dict (which holds "id" too). */
  datatype Row = Row(kind: Kind, id: string, attrs: map<string, Json>)

  /** All live rows, in table order. */
  type Store = seq<Row>

  predicate Names(r: Row, k: Kind, id: string) {
    r.kind == k && r.id == id
  }

  predicate SameIdentity(a: Row, b: Row) {
    a.kind == b.kind && a.id == b.id
  }

  /** Some live row of kind `k` has primary key `id`. */
  predicate Stored(s: Store, k: Kind, id: string) {
    exists r :: r in s && Names(r, k, id)
  }

  /** The primary key constraint: no two rows share a kind and an id. */
  predicate UniqueIds(s: seq<Row>) {
    forall i, j :: 0 <= i < j < |s| ==> !SameIdentity(s[i], s[j])
  }

  /** Every object's "id" attribute is its primary key. */
  predicate Consistent(s: Store) {
    forall r :: r in s ==> "id" in r.attrs && r.attrs["id"] == JStr(r.id)
  }

  /** The invariant every store reachable through the views keeps. */
  predicate Valid(s: Store) {
    UniqueIds(s) && Consistent(s)
  }

  /** `cls is None or cls is classes[clss] or cls is clss`: does `cls` select kind `k`? */
  predicate Selects(cls: KindArg, k: Kind) {
    match cls
    case NoKind => true
    case Name(n) => n == ClassName(k)
    case Class(c) => c == k
    case Foreign => false
  }

  // ---------------------------------------------------------------- get

  /** `query(cls).filter(cls.id == id).first()`: the first row of kind `k` with key `id`. */
  function First(s: Store, k: Kind, id: string): (r: Option<Row>)
    ensures r.None? <==> !Stored(s, k, id)
    ensures r.Some? ==> r.value in s && Names(r.value, k, id)
  {
    if s == [] then None
    else if Names(s[0], k, id) then Some(s[0])
    else
      var r := First(s[1..], k, id);
      assert forall x :: x in s ==> x == s[0] || x in s[1..];
      r
  }

  /**
   * `get` as written: the guard `cls not in classes` tests the keys of `classes`,
   * which are the six names, so a class object never gets past it.
   */
  function GetAsWritten(s: Store, cls: KindArg, id: IdArg): (r: Option<Row>)
    ensures r.Some? <==>
              cls.Name? && KindNamed(cls.name).Some? && id.IdStr?
              && Stored(s, KindNamed(cls.name).value, id.id)
    ensures r.Some? ==> r.value in s && ClassName(r.value.kind) == cls.name && r.value.id == id.id
  {
    if cls.NoKind? || !(cls.Name? && KindNamed(cls.name).Some?) || id.NoId? || !id.IdStr? then None
    else First(s, KindNamed(cls.name).value, id.id)
  }

  /** The kind `get` resolves `cls` to once the guard admits class objects as well as names. */
  function Admits(cls: KindArg): (r: Option<Kind>)
    ensures r.Some? ==> Selects(cls, r.value)
    ensures r.None? <==> cls.NoKind? || cls.Foreign? || (cls.Name? && KindNamed(cls.name).None?)
  {
    match cls
    case Class(k) => Some(k)
    case Name(n) => KindNamed(n)
    case _ => None
  }

  /** `get` with the guard corrected to accept the class objects its callers pass. */
  function Get(s: Store, cls: KindArg, id: IdArg): (r: Option<Row>)
    ensures r.Some? <==> Admits(cls).Some? && id.IdStr? && Stored(s, Admits(cls).value, id.id)
    ensures r.Some? ==> r.value in s && Selects(cls, r.value.kind) && r.value.id == id.id
  {
    if Admits(cls).None? || !id.IdStr? then None
    else First(s, Admits(cls).value, id.id)
  }

  // ---------------------------------------------------------------- count and all

  /** `query(classes[k]).all()`: the rows of kind `k`, in table order. */
  function RowsOf(s: Store, k: Kind): (rows: seq<Row>)
    ensures forall r :: r in rows <==> r in s && r.kind == k
    ensures |rows| <= |s|
  {
    if s == [] then []
    else
      var rest := RowsOf(s[1..], k);
      assert forall x :: x in s ==> x == s[0] || x in s[1..];
      (if s[0].kind == k then [s[0]] else []) + rest
  }

  /** The rows `count` and `all` visit: for each kind of `ks` that `cls` selects, its rows. */
  function Selected(s: Store, cls: KindArg, ks: seq<Kind>): (sel: seq<Row>)
    ensures forall r :: r in sel <==> r in s && r.kind in ks && Selects(cls, r.kind)
  {
    if ks == [] then []
    else (if Selects(cls, ks[0]) then RowsOf(s, ks[0]) else []) + Selected(s, cls, ks[1..])
  }

  /** The loop of `count` over the kinds `ks`. */
  function CountOver(s: Store, cls: KindArg, ks: seq<Kind>): nat {
    if ks == [] then 0
    else (if Selects(cls, ks[0]) then |RowsOf(s, ks[0])| else 0) + CountOver(s, cls, ks[1..])
  }

  /** `count(cls)`: the number of rows of every kind `cls` selects. */
  function Count(s: Store, cls: KindArg): (n: nat)
    ensures n <= |s|
    ensures (forall k: Kind :: !Selects(cls, k)) ==> n == 0
  {
    CountSelected(s, cls, Kinds);
    SelectedLength(s, cls);
    CountOver(s, cls, Kinds)
  }

  lemma {:induction false} CountSelected(s: Store, cls: KindArg, ks: seq<Kind>)
    ensures CountOver(s, cls, ks) == |Selected(s, cls, ks)|
    decreases ks
  {
    if ks != [] {
      CountSelected(s, cls, ks[1..]);
    }
  }

  lemma SelectedLength(s: Store, cls: KindArg)
    ensures |Selected(s, cls, Kinds)| <= |s|
    ensures (forall k: Kind :: !Selects(cls, k)) ==> Selected(s, cls, Kinds) == []
  {
    SelectedAllKinds(s);
    SelectedMonotone(s, cls, Kinds);
    if forall k: Kind :: !Selects(cls, k) {
      SelectedNone(s, cls, Kinds);
    }
  }

  lemma {:induction false} SelectedNone(s: Store, cls: KindArg, ks: seq<Kind>)
    requires forall k: Kind :: !Selects(cls, k)
    ensures Selected(s, cls, ks) == []
    decreases ks
  {
    if ks != [] {
      SelectedNone(s, cls, ks[1..]);
    }
  }

  /** Every kind occurs in `Kinds`. */
  lemma KindsComplete(k: Kind)
    ensures k in Kinds
  {
    match k
    case Amenity => assert Kinds[0] == k;
    case City => assert Kinds[1] == k;
    case Place => assert Kinds[2] == k;
    case Review => assert Kinds[3] == k;
    case State => assert Kinds[4] == k;
    case User => assert Kinds[5] == k;
  }

  /** How many entries of `ks` are `k` and selected by `cls`. */
  function Hits(cls: KindArg, ks: seq<Kind>, k: Kind): nat {
    if ks == [] then 0
    else (if ks[0] == k && Selects(cls, k) then 1 else 0) + Hits(cls, ks[1..], k)
  }

  lemma {:induction false} SelectedMonotone(s: Store, cls: KindArg, ks: seq<Kind>)
    ensures |Selected(s, cls, ks)| <= |Selected(s, NoKind, ks)|
    decreases ks
  {
    if ks != [] {
      SelectedMonotone(s, cls, ks[1..]);
    }
  }

  lemma {:induction false} SelectedCons(x: Row, t: Store, cls: KindArg, ks: seq<Kind>)
    ensures |Selected([x] + t, cls, ks)| == |Selected(t, cls, ks)| + Hits(cls, ks, x.kind)
    decreases ks
  {
    if ks != [] {
      assert ([x] + t)[1..] == t;
      SelectedCons(x, t, cls, ks[1..]);
    }
  }

  /** Taking every kind visits each row exactly once: the kinds partition the table. */
  lemma {:induction false} SelectedAllKinds(s: Store)
    ensures |Selected(s, NoKind, Kinds)| == |s|
  {
    if s != [] {
      var x, t := s[0], s[1..];
      assert s == [x] + t;
      SelectedCons(x, t, NoKind, Kinds);
      SelectedAllKinds(t);
      HitsOnce(NoKind, x.kind);
    } else {
      SelectedEmpty(NoKind, Kinds);
    }
  }

  lemma {:induction false} SelectedEmpty(cls: KindArg, ks: seq<Kind>)
    ensures Selected([], cls, ks) == []
    decreases ks
  {
    if ks != [] {
      SelectedEmpty(cls, ks[1..]);
    }
  }

  /** Each kind appears once in `Kinds`. */
  lemma HitsOnce(cls: KindArg, k: Kind)
    ensures Hits(cls, Kinds, k) == if Selects(cls, k) then 1 else 0
  {
    HitsScale(cls, Kinds, k);
    assert Kinds[0..] == Kinds;
    HitsFrom(Kinds, 0, k);
    HitsFrom(Kinds, 1, k);
    HitsFrom(Kinds, 2, k);
    HitsFrom(Kinds, 3, k);
    HitsFrom(Kinds, 4, k);
    HitsFrom(Kinds, 5, k);
    assert Kinds[6..] == [];
  }

  lemma HitsFrom(ks: seq<Kind>, i: nat, k: Kind)
    requires i < |ks|
    ensures Hits(NoKind, ks[i..], k) == (if ks[i] == k then 1 else 0) + Hits(NoKind, ks[i + 1..], k)
  {
    assert ks[i..][1..] == ks[i + 1..];
  }

  lemma {:induction false} HitsScale(cls: KindArg, ks: seq<Kind>, k: Kind)
    ensures Hits(cls, ks, k) == if Selects(cls, k) then Hits(NoKind, ks, k) else 0
    decreases ks
  {
    if ks != [] {
      HitsScale(cls, ks[1..], k);
    }
  }

  /** A Python dict entry. */
  datatype Entry = Entry(key: string, obj: Row)

  /** A Python dict: its entries in insertion order. */
  type Dict = seq<Entry>

  /** The key `all` files an object under: `obj.__class__.__name__ + '.' + obj.id`. */
  function KeyOf(r: Row): string {
    ClassName(r.kind) + "." + r.id
  }

  function KeySet(d: Dict): set<string> {
    set e | e in d :: e.key
  }

  function Values(d: Dict): (objs: seq<Row>)
    ensures |objs| == |d|
    ensures forall i :: 0 <= i < |d| ==> objs[i] == d[i].obj
  {
    if d == [] then [] else [d[0].obj] + Values(d[1..])
  }

  /** `d[key] = v`: overwrite in place when the key is present, append otherwise. */
  function Put(d: Dict, key: string, v: Row): (d': Dict)
    ensures forall e :: e in d' ==> e in d || e == Entry(key, v)
    ensures KeySet(d') == KeySet(d) + {key}
    ensures key !in KeySet(d) ==> d' == d + [Entry(key, v)]
  {
    if d == [] then [Entry(key, v)]
    else if d[0].key == key then
      assert d == [d[0]] + d[1..];
      KeySetCons(d[0], d[1..]);
      KeySetCons(Entry(key, v), d[1..]);
      [Entry(key, v)] + d[1..]
    else
      var rest := Put(d[1..], key, v);
      assert d == [d[0]] + d[1..];
      KeySetCons(d[0], d[1..]);
      KeySetCons(d[0], rest);
      assert key !in KeySet(d) ==> [d[0]] + rest == d + [Entry(key, v)] by {
        if key !in KeySet(d) {
          assert d == [d[0]] + d[1..];
        }
      }
      [d[0]] + rest
  }

  lemma KeySetCons(e: Entry, d: Dict)
    ensures KeySet([e] + d) == {e.key} + KeySet(d)
  {
    assert forall x :: x in [e] + d <==> x == e || x in d;
  }

  /** The entries `all` makes from `rows` when no two of them collide. */
  function Entries(rows: seq<Row>): (d: Dict)
    ensures |d| == |rows|
    ensures forall i :: 0 <= i < |rows| ==> d[i] == Entry(KeyOf(rows[i]), rows[i])
  {
    if rows == [] then [] else Entries(rows[..|rows| - 1]) + [Entry(KeyOf(rows[|rows| - 1]), rows[|rows| - 1])]
  }

  /** `for obj in rows: d[key] = obj`, the rows taken in order. */
  function Collect(d: Dict, rows: seq<Row>): (d': Dict)
    ensures forall e :: e in d' ==> e in d || (e.obj in rows && e.key == KeyOf(e.obj))
    ensures KeySet(d') == KeySet(d) + set r | r in rows :: KeyOf(r)
  {
    if rows == [] then d
    else
      var init, last := rows[..|rows| - 1], rows[|rows| - 1];
      var d' := Put(Collect(d, init), KeyOf(last), last);
      assert (set r | r in rows :: KeyOf(r)) == (set r | r in init :: KeyOf(r)) + {KeyOf(last)} by {
        assert forall x :: x in rows <==> x in init || x == last;
      }
      assert forall x :: x in init ==> x in rows;
      d'
  }

  /**
   * `all(cls)`: every selected object filed under `"<Class>.<id>"`. The key format,
   * the kind filter and the key set hold whatever the store holds.
   */
  function All(s: Store, cls: KindArg): (d: Dict)
    ensures forall e :: e in d ==> e.key == KeyOf(e.obj) && e.obj in s && Selects(cls, e.obj.kind)
    ensures KeySet(d) == set r | r in s && Selects(cls, r.kind) :: KeyOf(r)
  {
    var sel := Selected(s, cls, Kinds);
    forall k: Kind
      ensures k in Kinds
    {
      KindsComplete(k);
    }
    assert (set r | r in sel :: KeyOf(r)) == set r | r in s && Selects(cls, r.kind) :: KeyOf(r);
    Collect([], sel)
  }

  // ---------------------------------------------------------------- new and delete

  /** `new(obj)` followed by `save()`: the object joins the end of its table. */
  function New(s: Store, obj: Row): (s': Store)
    ensures |s'| == |s| + 1 && s'[..|s|] == s && s'[|s|] == obj
  {
    s + [obj]
  }

  /** Remove every row named (k, id), keeping the others in order. */
  function Remove(s: Store, k: Kind, id: string): (s': Store)
    ensures forall r :: r in s' <==> r in s && !Names(r, k, id)
    ensures |s'| <= |s|
  {
    if s == [] then []
    else
      var rest := Remove(s[1..], k, id);
      assert forall x :: x in s ==> x == s[0] || x in s[1..];
      (if Names(s[0], k, id) then [] else [s[0]]) + rest
  }

  /** `delete(obj)` followed by `save()`: `None` changes nothing, an object loses its row. */
  function Delete(s: Store, obj: Option<Row>): (s': Store)
    ensures obj.None? ==> s' == s
    ensures obj.Some? ==> forall r :: r in s' <==> r in s && !SameIdentity(r, obj.value)
  {
    match obj
    case None => s
    case Some(o) => Remove(s, o.kind, o.id)
  }

  /** Attribute assignments on a live object followed by `save()`: its row takes `obj`'s place. */
  function Replace(s: Store, obj: Row): (s': Store)
    ensures |s'| == |s|
    ensures forall i :: 0 <= i < |s| ==> s'[i] == (if SameIdentity(s[i], obj) then obj else s[i])
  {
    if s == [] then []
    else [if SameIdentity(s[0], obj) then obj else s[0]] + Replace(s[1..], obj)
  }
}

=== FILE: storage_laws.dfy ===
/**
 * Laws of the storage facade: how `count`, `all`, `get`, `new` and `delete` relate
 * to one another over any store that keeps its primary key constraint.
 */
module StorageLaws {
  import opened Wrappers
  import opened Py
  import opened Storage

  // ---------------------------------------------------------------- keys

  /** The six class names start with six different letters. */
  lemma InitialsDiffer(a: Kind, b: Kind)
    requires ClassName(a)[0] == ClassName(b)[0]
    ensures a == b
  {
  }

  /** `"<Class>.<id>"` determines both the class and the id. */
  lemma KeyInjective(a: Row, b: Row)
    requires KeyOf(a) == KeyOf(b)
    ensures SameIdentity(a, b)
  {
    assert KeyOf(a)[0] == ClassName(a.kind)[0];
    assert KeyOf(b)[0] == ClassName(b.kind)[0];
    InitialsDiffer(a.kind, b.kind);
    var n := |ClassName(a.kind)| + 1;
    assert KeyOf(a)[n..] == a.id;
    assert KeyOf(b)[n..] == b.id;
  }

  // ---------------------------------------------------------------- uniqueness survives filtering

  lemma {:induction false} UniqueRowsOf(s: Store, k: Kind)
    requires UniqueIds(s)
    ensures UniqueIds(RowsOf(s, k))
    decreases s
  {
    if s != [] {
      var t := s[1..];
      UniqueTail(s);
      UniqueRowsOf(t, k);
      if s[0].kind == k {
        UniqueCons(s[0], RowsOf(t, k));
      }
    }
  }

  /** The tail of a unique sequence is unique and avoids the head's identity. */
  lemma UniqueTail(rows: seq<Row>)
    requires UniqueIds(rows)
    requires rows != []
    ensures UniqueIds(rows[1..])
    ensures forall r :: r in rows[1..] ==> !SameIdentity(rows[0], r)
  {
    var t := rows[1..];
    forall i, j | 0 <= i < j < |t|
      ensures !SameIdentity(t[i], t[j])
    {
      assert t[i] == rows[i + 1] && t[j] == rows[j + 1];
    }
    forall r | r in t
      ensures !SameIdentity(rows[0], r)
    {
      var j :| 0 <= j < |t| && t[j] == r;
      assert rows[j + 1] == r;
    }
  }

  /** A row whose identity is new to `rows` keeps `[x] + rows` unique. */
  lemma UniqueCons(x: Row, rows: seq<Row>)
    requires UniqueIds(rows)
    requires forall r :: r in rows ==> !SameIdentity(x, r)
    ensures UniqueIds([x] + rows)
  {
    var xs := [x] + rows;
    forall i, j | 0 <= i < j < |xs|
      ensures !SameIdentity(xs[i], xs[j])
    {
      if i == 0 {
        assert xs[j] in rows;
      } else {
        assert xs[i] == rows[i - 1] && xs[j] == rows[j - 1];
      }
    }
  }

  lemma UniqueAppend(a: seq<Row>, b: seq<Row>)
    requires UniqueIds(a) && UniqueIds(b)
    requires forall x, y :: x in a && y in b ==> !SameIdentity(x, y)
    ensures UniqueIds(a + b)
  {
    var ab := a + b;
    forall i, j | 0 <= i < j < |ab|
      ensures !SameIdentity(ab[i], ab[j])
    {
      if j < |a| {
        assert ab[i] == a[i] && ab[j] == a[j];
      } else if i >= |a| {
        assert ab[i] == b[i - |a|] && ab[j] == b[j - |a|];
      } else {
        assert ab[i] in a && ab[j] in b;
      }
    }
  }

  predicate DistinctKinds(ks: seq<Kind>) {
    forall i, j :: 0 <= i < j < |ks| ==> ks[i] != ks[j]
  }

  lemma {:induction false} UniqueSelected(s: Store, cls: KindArg, ks: seq<Kind>)
    requires UniqueIds(s)
    requires DistinctKinds(ks)
    ensures UniqueIds(Selected(s, cls, ks))
    decreases ks
  {
    if ks != [] {
      var head := if Selects(cls, ks[0]) then RowsOf(s, ks[0]) else [];
      UniqueRowsOf(s, ks[0]);
      assert DistinctKinds(ks[1..]) by {
        forall i, j | 0 <= i < j < |ks[1..]|
          ensures ks[1..][i] != ks[1..][j]
        {
          assert ks[1..][i] == ks[i + 1] && ks[1..][j] == ks[j + 1];
        }
      }
      UniqueSelected(s, cls, ks[1..]);
      forall x, y | x in head && y in Selected(s, cls, ks[1..])
        ensures !SameIdentity(x, y)
      {
        var j :| 0 <= j < |ks[1..]| && ks[1..][j] == y.kind;
        assert ks[j + 1] == y.kind;
      }
      UniqueAppend(head, Selected(s, cls, ks[1..]));
    }
  }

  lemma KindsDistinct()
    ensures DistinctKinds(Kinds)
  {
  }

  // ---------------------------------------------------------------- all and count

  /** Dropping the last row keeps identities pairwise different. */
  lemma UniqueInit(rows: seq<Row>)
    requires UniqueIds(rows) && rows != []
    ensures UniqueIds(rows[..|rows| - 1])
  {
    var init := rows[..|rows| - 1];
    forall i, j | 0 <= i < j < |init|
      ensures !SameIdentity(init[i], init[j])
    {
      assert init[i] == rows[i] && init[j] == rows[j];
    }
  }

  /** The key of the last row is not among the keys filed before it. */
  lemma LastKeyFresh(d: Dict, rows: seq<Row>)
    requires UniqueIds(rows) && rows != []
    requires forall r, x :: r in rows && x in d ==> x.key != KeyOf(r)
    ensures KeyOf(rows[|rows| - 1]) !in KeySet(d + Entries(rows[..|rows| - 1]))
  {
    var init, last := rows[..|rows| - 1], rows[|rows| - 1];
    var prefix := d + Entries(init);
    forall x | x in prefix
      ensures x.key != KeyOf(last)
    {
      if x in d {
        assert last in rows;
      } else {
        var i :| 0 <= i < |Entries(init)| && Entries(init)[i] == x;
        assert init[i] == rows[i];
        assert !SameIdentity(rows[i], rows[|rows| - 1]);
        if x.key == KeyOf(last) {
          KeyInjective(init[i], last);
        }
      }
    }
  }

  /** Sequence concatenation is associative (stated once so the solver does not search for it). */
  lemma AppendAssoc(a: Dict, b: Dict, c: Dict)
    ensures (a + b) + c == a + (b + c)
  {
  }

  /** Putting rows with pairwise different identities under fresh keys appends one entry each. */
  lemma {:induction false} CollectFresh(d: Dict, rows: seq<Row>)
    requires UniqueIds(rows)
    requires forall r, x :: r in rows && x in d ==> x.key != KeyOf(r)
    ensures Collect(d, rows) == d + Entries(rows)
    decreases rows
  {
    if rows != [] {
      var init, last := rows[..|rows| - 1], rows[|rows| - 1];
      UniqueInit(rows);
      assert forall r :: r in init ==> r in rows;
      CollectFresh(d, init);
      LastKeyFresh(d, rows);
      var e := Entry(KeyOf(last), last);
      var prefix := d + Entries(init);
      assert Collect(d, rows) == Put(prefix, KeyOf(last), last);
      assert Put(prefix, KeyOf(last), last) == prefix + [e];
      assert Entries(rows) == Entries(init) + [e];
      AppendAssoc(d, Entries(init), [e]);
    }
  }

  /** Every value `all` returns is a stored row of a kind `cls` selects. */
  lemma ValuesOfAll(s: Store, cls: KindArg)
    ensures forall o :: o in Values(All(s, cls)) ==> o in s && Selects(cls, o.kind)
  {
    var d := All(s, cls);
    forall o | o in Values(d)
      ensures o in s && Selects(cls, o.kind)
    {
      var i :| 0 <= i < |d| && Values(d)[i] == o;
      assert d[i] in d;
    }
  }

  /** Over a store with unique ids, `all` files every selected row once, in visiting order. */
  lemma AllIsEntries(s: Store, cls: KindArg)
    requires UniqueIds(s)
    ensures All(s, cls) == Entries(Selected(s, cls, Kinds))
  {
    KindsDistinct();
    UniqueSelected(s, cls, Kinds);
    CollectFresh([], Selected(s, cls, Kinds));
  }

  /** `count(cls) == len(all(cls))` for every argument, given unique ids. */
  lemma CountIsSizeOfAll(s: Store, cls: KindArg)
    requires UniqueIds(s)
    ensures Count(s, cls) == |All(s, cls)|
  {
    AllIsEntries(s, cls);
    CountSelected(s, cls, Kinds);
  }

  lemma ValuesOfEntries(rows: seq<Row>)
    ensures Values(Entries(rows)) == rows
  {
  }

  /** The rows a single kind selects are that kind's rows. */
  lemma {:induction false} SelectedOneKind(s: Store, cls: KindArg, k: Kind, ks: seq<Kind>)
    requires forall k' :: Selects(cls, k') <==> k' == k
    requires DistinctKinds(ks)
    ensures Selected(s, cls, ks) == if k in ks then RowsOf(s, k) else []
    decreases ks
  {
    if ks != [] {
      assert DistinctKinds(ks[1..]) by {
        forall i, j | 0 <= i < j < |ks[1..]|
          ensures ks[1..][i] != ks[1..][j]
        {
          assert ks[1..][i] == ks[i + 1] && ks[1..][j] == ks[j + 1];
        }
      }
      SelectedOneKind(s, cls, k, ks[1..]);
      if ks[0] == k {
        assert k !in ks[1..];
      }
      assert k in ks <==> ks[0] == k || k in ks[1..];
    }
  }

  /**
   * `all(K)` and `all("K")` list exactly the rows of kind K in table order, and
   * `count` of either is the number of those rows.
   */
  lemma AllOfOneKind(s: Store, k: Kind)
    requires UniqueIds(s)
    ensures Values(All(s, Class(k))) == RowsOf(s, k)
    ensures Values(All(s, Name(ClassName(k)))) == RowsOf(s, k)
    ensures Count(s, Class(k)) == |RowsOf(s, k)| == Count(s, Name(ClassName(k)))
  {
    KindsDistinct();
    KindsComplete(k);
    forall k' ensures Selects(Name(ClassName(k)), k') <==> k' == k {
      if ClassName(k') == ClassName(k) {
        InitialsDiffer(k', k);
      }
    }
    SelectedOneKind(s, Class(k), k, Kinds);
    SelectedOneKind(s, Name(ClassName(k)), k, Kinds);
    AllIsEntries(s, Class(k));
    AllIsEntries(s, Name(ClassName(k)));
    ValuesOfEntries(RowsOf(s, k));
    CountSelected(s, Class(k), Kinds);
    CountSelected(s, Name(ClassName(k)), Kinds);
  }

  /** `all()` lists every stored object exactly once, and `count()` is the size of the table. */
  lemma AllOfEverything(s: Store)
    requires UniqueIds(s)
    ensures forall r :: r in Values(All(s, NoKind)) <==> r in s
    ensures |All(s, NoKind)| == |s| == Count(s, NoKind)
  {
    AllIsEntries(s, NoKind);
    ValuesOfEntries(Selected(s, NoKind, Kinds));
    SelectedAllKinds(s);
    CountSelected(s, NoKind, Kinds);
    forall r | r in s ensures r in Selected(s, NoKind, Kinds) {
      KindsComplete(r.kind);
    }
  }

  /** An argument that selects no kind, such as an unknown name or `BaseModel`, counts 0 and lists nothing. */
  lemma UnknownKind(s: Store, cls: KindArg)
    requires forall k: Kind :: !Selects(cls, k)
    ensures Count(s, cls) == 0
    ensures All(s, cls) == []
  {
    SelectedLength(s, cls);
  }
  /** What a list view shows: stored rows of its kind, and with unique ids exactly those. */
  lemma ValuesOfOneKind(s: Store, k: Kind)
    ensures forall o :: o in Values(All(s, Class(k))) ==> o in s && o.kind == k
    ensures UniqueIds(s) ==> Values(All(s, Class(k))) == RowsOf(s, k)
    ensures UniqueIds(s) ==> |Values(All(s, Class(k)))| == Count(s, Class(k))
  {
    ValuesOfAll(s, Class(k));
    if UniqueIds(s) {
      AllOfOneKind(s, k);
    }
  }

  /** `count` of one class counts that kind's rows; no uniqueness needed. */
  lemma CountOfKind(s: Store, k: Kind)
    ensures Count(s, Class(k)) == |RowsOf(s, k)|
    ensures Count(s, Name(ClassName(k))) == |RowsOf(s, k)|
  {
    KindsDistinct();
    KindsComplete(k);
    CountSelected(s, Class(k), Kinds);
    SelectedOneKind(s, Class(k), k, Kinds);
    CountSelected(s, Name(ClassName(k)), Kinds);
    forall k' ensures Selects(Name(ClassName(k)), k') <==> k' == k {
      if ClassName(k') == ClassName(k) {
        InitialsDiffer(k, k');
      }
    }
    SelectedOneKind(s, Name(ClassName(k)), k, Kinds);
  }

  /** The six per-class counts add up to `count()`, which is the number of rows. */
  lemma CountsPartition(s: Store)
    ensures Count(s, NoKind) == |s|
    ensures Count(s, Class(Amenity)) + Count(s, Class(City)) + Count(s, Class(Place))
            + Count(s, Class(Review)) + Count(s, Class(State)) + Count(s, Class(User)) == |s|
  {
    CountSelected(s, NoKind, Kinds);
    SelectedAllKinds(s);
    CountOverKinds(s);
    CountOfKind(s, Amenity);
    CountOfKind(s, City);
    CountOfKind(s, Place);
    CountOfKind(s, Review);
    CountOfKind(s, State);
    CountOfKind(s, User);
  }

  /** Summing over `classes` visits the six kinds one after another. */
  lemma CountOverKinds(s: Store)
    ensures CountOver(s, NoKind, Kinds)
            == |RowsOf(s, Amenity)| + |RowsOf(s, City)| + |RowsOf(s, Place)|
             + |RowsOf(s, Review)| + |RowsOf(s, State)| + |RowsOf(s, User)|
  {
    var k6: seq<Kind> := [];
    var k5 := [User] + k6;
    var k4 := [State] + k5;
    var k3 := [Review] + k4;
    var k2 := [Place] + k3;
    var k1 := [City] + k2;
    assert Kinds == [Amenity] + k1;
    CountOverCons(s, Amenity, k1);
    CountOverCons(s, City, k2);
    CountOverCons(s, Place, k3);
    CountOverCons(s, Review, k4);
    CountOverCons(s, State, k5);
    CountOverCons(s, User, k6);
  }

  lemma CountOverCons(s: Store, k: Kind, ks: seq<Kind>)
    ensures CountOver(s, NoKind, [k] + ks) == |RowsOf(s, k)| + CountOver(s, NoKind, ks)
  {
    assert ([k] + ks)[1..] == ks;
  }


  // ---------------------------------------------------------------- get

  lemma {:induction false} FirstAppend(s: Store, r: Row, k: Kind, id: string)
    ensures First(s + [r], k, id) ==
              if Stored(s, k, id) then First(s, k, id)
              else if Names(r, k, id) then Some(r) else None
    decreases s
  {
    if s == [] {
      assert [] + [r] == [r];
      assert [r][1..] == [];
    } else {
      var x, t := s[0], s[1..];
      assert s == [x] + t;
      assert s + [r] == [x] + (t + [r]);
      FirstAppend(t, r, k, id);
      FirstCons(x, t, k, id);
      FirstCons(x, t + [r], k, id);
      StoredCons(x, t, k, id);
    }
  }

  lemma FirstCons(x: Row, t: Store, k: Kind, id: string)
    ensures First([x] + t, k, id) == if Names(x, k, id) then Some(x) else First(t, k, id)
  {
    assert ([x] + t)[1..] == t;
  }

  /** Under unique ids the row `get` finds is the only one of its identity. */
  lemma GetUnique(s: Store, r: Row)
    requires UniqueIds(s)
    requires r in s
    ensures Get(s, Class(r.kind), IdStr(r.id)) == Some(r)
    ensures GetAsWritten(s, Name(ClassName(r.kind)), IdStr(r.id)) == Some(r)
  {
    var f := First(s, r.kind, r.id);
    assert f.Some?;
    var i :| 0 <= i < |s| && s[i] == r;
    var j :| 0 <= j < |s| && s[j] == f.value;
    assert i == j;
    KindNamedClassName(r.kind);
  }

  lemma KindNamedClassName(k: Kind)
    ensures KindNamed(ClassName(k)) == Some(k)
  {
  }

  /** The correction changes nothing for callers that pass a name string. */
  lemma GetAgreesOnNames(s: Store, name: string, id: IdArg)
    ensures Get(s, Name(name), id) == GetAsWritten(s, Name(name), id)
  {
  }

  /** As written, `get(<class object>, id)` is None even for a stored row. */
  lemma GetAsWrittenRejectsClasses(s: Store, k: Kind, id: IdArg)
    ensures GetAsWritten(s, Class(k), id) == None
    ensures id.IdStr? && Stored(s, k, id.id) ==> Get(s, Class(k), id).Some?
  {
  }

  /**
   * `new(obj)` then `save()` then `get(type(obj), obj.id)`: the corrected `get` returns the
   * object, the one as written returns None, which is what the storage test trips over.
   */
  lemma GetAfterNew(s: Store, obj: Row)
    requires !Stored(s, obj.kind, obj.id)
    ensures Get(New(s, obj), Class(obj.kind), IdStr(obj.id)) == Some(obj)
    ensures Get(New(s, obj), Name(ClassName(obj.kind)), IdStr(obj.id)) == Some(obj)
    ensures GetAsWritten(New(s, obj), Class(obj.kind), IdStr(obj.id)) == None
  {
    FirstAppend(s, obj, obj.kind, obj.id);
    KindNamedClassName(obj.kind);
  }

  /** `get` of a row that is not its own leaves other lookups where they were. */
  lemma GetAfterNewOther(s: Store, obj: Row, k: Kind, id: string)
    requires !Names(obj, k, id)
    ensures Get(New(s, obj), Class(k), IdStr(id)) == Get(s, Class(k), IdStr(id))
  {
    FirstAppend(s, obj, k, id);
  }

  /** After `delete(obj)` and `save()`, `get` no longer finds it. */
  lemma GetAfterDelete(s: Store, obj: Row)
    ensures Get(Delete(s, Some(obj)), Class(obj.kind), IdStr(obj.id)) == None
  {
  }

  /** After assigning attributes and saving, `get` returns the changed object. */
  lemma GetAfterReplace(s: Store, obj: Row)
    requires Stored(s, obj.kind, obj.id)
    ensures Get(Replace(s, obj), Class(obj.kind), IdStr(obj.id)) == Some(obj)
  {
    FirstReplace(s, obj);
  }

  lemma {:induction false} FirstReplace(s: Store, obj: Row)
    requires Stored(s, obj.kind, obj.id)
    ensures First(Replace(s, obj), obj.kind, obj.id) == Some(obj)
    decreases s
  {
    var s' := Replace(s, obj);
    assert s'[0] == (if SameIdentity(s[0], obj) then obj else s[0]);
    if !SameIdentity(s[0], obj) {
      assert forall x :: x in s ==> x == s[0] || x in s[1..];
      assert s'[1..] == Replace(s[1..], obj);
      FirstReplace(s[1..], obj);
    }
  }

  // ---------------------------------------------------------------- how mutations move the counts

  lemma {:induction false} RowsOfAppend(s: Store, r: Row, k: Kind)
    ensures RowsOf(s + [r], k) == RowsOf(s, k) + (if r.kind == k then [r] else [])
    decreases s
  {
    if s == [] {
      assert [] + [r] == [r];
      assert [r][1..] == [];
    } else {
      var t := s + [r];
      assert t[0] == s[0] && t[1..] == s[1..] + [r];
      RowsOfAppend(s[1..], r, k);
      var head: seq<Row> := if s[0].kind == k then [s[0]] else [];
      var tail: seq<Row> := if r.kind == k then [r] else [];
      calc {
        RowsOf(t, k);
        head + RowsOf(s[1..] + [r], k);
        head + (RowsOf(s[1..], k) + tail);
        { RowsAssoc(head, RowsOf(s[1..], k), tail); }
        (head + RowsOf(s[1..], k)) + tail;
        RowsOf(s, k) + tail;
      }
    }
  }

  lemma RowsAssoc(a: seq<Row>, b: seq<Row>, c: seq<Row>)
    ensures a + (b + c) == (a + b) + c
  {
  }

  lemma {:induction false} CountOverAppend(s: Store, r: Row, cls: KindArg, ks: seq<Kind>)
    ensures CountOver(s + [r], cls, ks) == CountOver(s, cls, ks) + Hits(cls, ks, r.kind)
    decreases ks
  {
    if ks != [] {
      RowsOfAppend(s, r, ks[0]);
      CountOverAppend(s, r, cls, ks[1..]);
    }
  }

  /** `new(obj)` adds one to the count of every argument that selects its kind, and nothing else. */
  lemma CountAfterNew(s: Store, obj: Row, cls: KindArg)
    ensures Count(New(s, obj), cls) == Count(s, cls) + (if Selects(cls, obj.kind) then 1 else 0)
  {
    CountOverAppend(s, obj, cls, Kinds);
    HitsOnce(cls, obj.kind);
  }

  lemma {:induction false} RowsOfRemove(s: Store, k: Kind, id: string, k': Kind)
    requires UniqueIds(s)
    ensures |RowsOf(Remove(s, k, id), k')| == |RowsOf(s, k')| - (if k' == k && Stored(s, k, id) then 1 else 0)
    decreases s
  {
    if s != [] {
      var x, t := s[0], s[1..];
      assert s == [x] + t;
      UniqueTail(s);
      RowsOfRemove(t, k, id, k');
      RowsOfCons(x, t, k');
      RemoveCons(x, t, k, id);
      StoredCons(x, t, k, id);
      if !Names(x, k, id) {
        RowsOfCons(x, Remove(t, k, id), k');
      } else {
        assert !Stored(t, k, id) by {
          forall r | r in t ensures !Names(r, k, id) {
            assert !SameIdentity(x, r);
          }
        }
        assert [] + Remove(t, k, id) == Remove(t, k, id);
      }
    }
  }

  lemma RowsOfCons(x: Row, t: Store, k: Kind)
    ensures |RowsOf([x] + t, k)| == (if x.kind == k then 1 else 0) + |RowsOf(t, k)|
  {
    assert ([x] + t)[1..] == t;
  }

  lemma RemoveCons(x: Row, t: Store, k: Kind, id: string)
    ensures Remove([x] + t, k, id) == (if Names(x, k, id) then [] else [x]) + Remove(t, k, id)
  {
    assert ([x] + t)[1..] == t;
  }

  lemma StoredCons(x: Row, t: Store, k: Kind, id: string)
    ensures Stored([x] + t, k, id) <==> Names(x, k, id) || Stored(t, k, id)
  {
    assert forall r :: r in [x] + t <==> r == x || r in t;
  }

  lemma {:induction false} CountOverRemove(s: Store, k: Kind, id: string, cls: KindArg, ks: seq<Kind>)
    requires UniqueIds(s)
    requires Stored(s, k, id)
    ensures CountOver(Remove(s, k, id), cls, ks) == CountOver(s, cls, ks) - Hits(cls, ks, k)
    decreases ks
  {
    if ks != [] {
      RowsOfRemove(s, k, id, ks[0]);
      CountOverRemove(s, k, id, cls, ks[1..]);
    }
  }

  /** `delete(obj)` of a stored object takes one off the count of every argument that selects its kind. */
  lemma CountAfterDelete(s: Store, obj: Row, cls: KindArg)
    requires UniqueIds(s)
    requires obj in s
    ensures Count(Delete(s, Some(obj)), cls) == Count(s, cls) - (if Selects(cls, obj.kind) then 1 else 0)
  {
    CountOverRemove(s, obj.kind, obj.id, cls, Kinds);
    HitsOnce(cls, obj.kind);
  }

  lemma {:induction false} RowsOfReplace(s: Store, obj: Row, k: Kind)
    ensures |RowsOf(Replace(s, obj), k)| == |RowsOf(s, k)|
    decreases s
  {
    if s != [] {
      assert Replace(s, obj)[1..] == Replace(s[1..], obj);
      RowsOfReplace(s[1..], obj, k);
    }
  }

  lemma {:induction false} CountOverReplace(s: Store, obj: Row, cls: KindArg, ks: seq<Kind>)
    ensures CountOver(Replace(s, obj), cls, ks) == CountOver(s, cls, ks)
    decreases ks
  {
    if ks != [] {
      RowsOfReplace(s, obj, ks[0]);
      CountOverReplace(s, obj, cls, ks[1..]);
    }
  }

  /** Changing attributes of an object moves no count. */
  lemma CountAfterReplace(s: Store, obj: Row, cls: KindArg)
    ensures Count(Replace(s, obj), cls) == Count(s, cls)
  {
    CountOverReplace(s, obj, cls, Kinds);
  }

  // ---------------------------------------------------------------- the store invariant

  lemma ValidAfterNew(s: Store, obj: Row)
    requires Valid(s)
    requires !Stored(s, obj.kind, obj.id)
    requires "id" in obj.attrs && obj.attrs["id"] == JStr(obj.id)
    ensures Valid(New(s, obj))
  {
    var s' := New(s, obj);
    forall i, j | 0 <= i < j < |s'|
      ensures !SameIdentity(s'[i], s'[j])
    {
      if j == |s| {
        assert s'[i] in s;
      } else {
        assert s'[i] == s[i] && s'[j] == s[j];
      }
    }
  }

  lemma ValidAfterDelete(s: Store, obj: Option<Row>)
    requires Valid(s)
    ensures Valid(Delete(s, obj))
  {
    if obj.Some? {
      RemoveKeepsUnique(s, obj.value.kind, obj.value.id);
    }
  }

  lemma {:induction false} RemoveKeepsUnique(s: Store, k: Kind, id: string)
    requires UniqueIds(s)
    ensures UniqueIds(Remove(s, k, id))
    decreases s
  {
    if s != [] {
      var t := s[1..];
      UniqueTail(s);
      RemoveKeepsUnique(t, k, id);
      if !Names(s[0], k, id) {
        UniqueCons(s[0], Remove(t, k, id));
      }
    }
  }

  lemma ValidAfterReplace(s: Store, obj: Row)
    requires Valid(s)
    requires "id" in obj.attrs && obj.attrs["id"] == JStr(obj.id)
    ensures Valid(Replace(s, obj))
  {
    var s' := Replace(s, obj);
    forall i, j | 0 <= i < j < |s'|
      ensures !SameIdentity(s'[i], s'[j])
    {
      assert !SameIdentity(s[i], s[j]);
    }
    forall r | r in s'
      ensures "id" in r.attrs && r.attrs["id"] == JStr(r.id)
    {
      var i :| 0 <= i < |s'| && s'[i] == r;
      if !SameIdentity(s[i], obj) {
        assert s[i] in s;
      }
    }
  }

  // ---------------------------------------------------------------- the storage test

  function Blank(k: Kind, id: string): Row {
    Row(k, id, map["id" := JStr(id)])
  }

  /** The store after one `new` per class, in `classes` order, starting empty. */
  function OnePerKind(ids: seq<string>): Store
    requires |ids| == 6
  {
    New(New(New(New(New(New([], Blank(Amenity, ids[0])), Blank(City, ids[1])),
        Blank(Place, ids[2])), Blank(Review, ids[3])), Blank(State, ids[4])), Blank(User, ids[5]))
  }

  /** Each of the six `new`s raises the count by one exactly when the argument sees its kind. */
  lemma CountOnePerKind(ids: seq<string>, cls: KindArg)
    requires |ids| == 6
    ensures Count(OnePerKind(ids), cls)
              == (if Selects(cls, Amenity) then 1 else 0) + (if Selects(cls, City) then 1 else 0)
               + (if Selects(cls, Place) then 1 else 0) + (if Selects(cls, Review) then 1 else 0)
               + (if Selects(cls, State) then 1 else 0) + (if Selects(cls, User) then 1 else 0)
  {
    var s0: Store := [];
    var s1 := New(s0, Blank(Amenity, ids[0]));
    var s2 := New(s1, Blank(City, ids[1]));
    var s3 := New(s2, Blank(Place, ids[2]));
    var s4 := New(s3, Blank(Review, ids[3]));
    var s5 := New(s4, Blank(State, ids[4]));
    CountAfterNew(s0, Blank(Amenity, ids[0]), cls);
    CountAfterNew(s1, Blank(City, ids[1]), cls);
    CountAfterNew(s2, Blank(Place, ids[2]), cls);
    CountAfterNew(s3, Blank(Review, ids[3]), cls);
    CountAfterNew(s4, Blank(State, ids[4]), cls);
    CountAfterNew(s5, Blank(User, ids[5]), cls);
  }

  /**
   * From an empty store, one `new` per class gives six rows in all and one of each
   * kind, whatever ids the objects drew.
   */
  lemma OneOfEachKind(ids: seq<string>)
    requires |ids| == 6
    ensures Count(OnePerKind(ids), NoKind) == 6
    ensures forall k: Kind :: Count(OnePerKind(ids), Class(k)) == 1
  {
    CountOnePerKind(ids, NoKind);
    forall k: Kind ensures Count(OnePerKind(ids), Class(k)) == 1 {
      CountOnePerKind(ids, Class(k));
    }
  }
}

=== FILE: views.dfy ===
/**
 * What the route handlers share: the responses a view produces, the lookup-or-404
 * step, the list, show, delete and create steps every entity's views repeat, and the
 * `setattr` loop that merges a request payload onto a stored object.
 *
 * A view is a pure function from the store (and the request) to a `Step`: the store
 * after the request, and the response Flask sends.
 */
module Views {
  import opened Wrappers
  import opened Py
  import opened Storage
  import StorageLaws

  /** The JSON a successful view sends back. */
  datatype Payload =
    | Object(obj: Row)                  // `jsonify(obj.to_dict())`
    | Objects(objs: seq<Row>)           // `jsonify([o.to_dict() for o in ...])`
    | EmptyObject                       // `jsonify({})`
    | StatusOk                          // `jsonify({"status": "OK"})`
    | Counts(counts: map<string, nat>)  // the `stats` dict

  /** What the client receives. */
  datatype Response =
    | Reply(code: int, payload: Payload)
    | Fail(code: int, error: string)    // an `{"error": ...}` answer or an `abort`
    | Raised(exc: PyError)              // an exception escapes the view

  /** The store after a request, and the response to it. */
  datatype Step = Step(store: Store, response: Response)

  /** The status line the client sees. */
  function Code(r: Response): (code: int)
    ensures r.Raised? ==> code == StatusOf(r.exc)
    ensures !r.Raised? ==> code == r.code
  {
    match r
    case Reply(c, _) => c
    case Fail(c, _) => c
    case Raised(e) => StatusOf(e)
  }

  /** `abort(404)`, answered by the application's 404 handler. */
  const NotFound: Response := Fail(404, "Not found")

  const NotAJson: Response := Fail(400, "Not a JSON")

  function Missing(field: string): Response {
    Fail(400, "Missing " + field)
  }

  /** The body parsed to a JSON object. */
  predicate IsDict(b: Body) {
    b.Wellformed? && b.doc.JObject?
  }

  /** The key/value pairs of a body that parsed to an object. */
  function Fields(b: Body): (m: map<string, Json>)
    ensures IsDict(b) ==> m == b.doc.fields
  {
    if IsDict(b) then b.doc.fields else map[]
  }

  /** The outcome of a view's leading checks: the data to go on with, or the response that ends the request. */
  datatype Gate = Pass(data: Json) | Stop(response: Response)

  /** `if field not in data: abort(400, "Missing <field>")`, where `in` itself may raise. */
  function Require(field: string, data: Json): (g: Gate)
    ensures g.Pass? <==> Contains(field, data) == Ok(true)
    ensures g.Pass? ==> g.data == data
    ensures Contains(field, data) == Ok(false) ==> g == Stop(Missing(field))
    ensures Contains(field, data).Err? ==> g == Stop(Raised(TypeError))
  {
    match Contains(field, data)
    case Err(e) => Stop(Raised(e))
    case Ok(present) => if present then Pass(data) else Stop(Missing(field))
  }

  /**
   * `storage.get(Cls, id)` with the id taken from the route, against the corrected
   * `get` that admits class objects. Every lookup-based view below is modelled on it.
   */
  function Lookup(s: Store, k: Kind, id: string): (r: Option<Row>)
    ensures r.Some? <==> Stored(s, k, id)
    ensures r.Some? ==> r.value in s && Names(r.value, k, id)
  {
    Get(s, Class(k), IdStr(id))
  }

  /**
   * The same call against `get` as written: the class object the views pass never gets
   * past the guard, so nothing is found, whatever is stored.
   */
  function LookupAsWritten(s: Store, k: Kind, id: string): (r: Option<Row>)
    ensures r.None?
  {
    GetAsWritten(s, Class(k), IdStr(id))
  }

  // ---------------------------------------------------------------- list, show, delete

  /** `jsonify([o.to_dict() for o in storage.all(Cls).values()])`. */
  function ListAll(s: Store, k: Kind): (r: Step)
    ensures r.store == s
    ensures r.response.Reply? && r.response.code == 200 && r.response.payload.Objects?
    ensures forall o :: o in r.response.payload.objs ==> o in s && o.kind == k
    ensures UniqueIds(s) ==> r.response.payload.objs == RowsOf(s, k)
    ensures UniqueIds(s) ==> |r.response.payload.objs| == Count(s, Class(k))
  {
    var objs := Values(All(s, Class(k)));
    StorageLaws.ValuesOfOneKind(s, k);
    Step(s, Reply(200, Objects(objs)))
  }

  /** What a show view answers for the object its lookup found, if any. */
  function Shown(s: Store, found: Option<Row>): Step {
    match found
    case None => Step(s, NotFound)
    case Some(o) => Step(s, Reply(200, Object(o)))
  }

  /** `obj = storage.get(Cls, id)`, 404 when missing, else `jsonify(obj.to_dict())`. */
  function Show(s: Store, k: Kind, id: string): (r: Step)
    ensures r.store == s
    ensures r.response.Reply? <==> Stored(s, k, id)
    ensures r.response.Reply? ==>
              r.response.code == 200 && r.response.payload.Object?
              && r.response.payload.obj in s && Names(r.response.payload.obj, k, id)
    ensures !Stored(s, k, id) ==> r.response == NotFound
  {
    Shown(s, Lookup(s, k, id))
  }

  /** The show view against `get` as written: 404 for every key. */
  function ShowAsWritten(s: Store, k: Kind, id: string): (r: Step)
    ensures r == Step(s, NotFound)
  {
    Shown(s, LookupAsWritten(s, k, id))
  }

  /** What a delete view does with the object its lookup found, if any. */
  function Deleted(s: Store, found: Option<Row>): Step {
    match found
    case None => Step(s, NotFound)
    case Some(o) => Step(Delete(s, Some(o)), Reply(200, EmptyObject))
  }

  /** `storage.delete(obj); storage.save()` after the lookup, answering `{}`. */
  function Destroy(s: Store, k: Kind, id: string): (r: Step)
    ensures !Stored(s, k, id) ==> r == Step(s, NotFound)
    ensures Stored(s, k, id) ==> r.response == Reply(200, EmptyObject)
    ensures forall o :: o in r.store <==> o in s && !Names(o, k, id)
  {
    Deleted(s, Lookup(s, k, id))
  }

  /** The delete view against `get` as written: 404 for every key, and nothing is deleted. */
  function DestroyAsWritten(s: Store, k: Kind, id: string): (r: Step)
    ensures r == Step(s, NotFound)
  {
    Deleted(s, LookupAsWritten(s, k, id))
  }

  /**
   * Where an object is stored, the corrected views find it (show answers 200, delete
   * removes it) while the written ones answer 404 and leave the store as it was.
   */
  lemma LookupDiscrepancy(s: Store, k: Kind, id: string)
    requires Stored(s, k, id)
    ensures Show(s, k, id).response.Reply? && ShowAsWritten(s, k, id).response == NotFound
    ensures Destroy(s, k, id).store != s && DestroyAsWritten(s, k, id).store == s
  {
    var o :| o in s && Names(o, k, id);
    assert o !in Destroy(s, k, id).store;
  }

  /** Deleting keeps the invariant, and takes exactly one object of kind `k` away from every count that sees it. */
  lemma DestroyLaws(s: Store, k: Kind, id: string, cls: KindArg)
    requires Valid(s)
    ensures Valid(Destroy(s, k, id).store)
    ensures Count(Destroy(s, k, id).store, cls)
            == Count(s, cls) - (if Stored(s, k, id) && Selects(cls, k) then 1 else 0)
    ensures Show(Destroy(s, k, id).store, k, id).response == NotFound
  {
    match Lookup(s, k, id)
    case None =>
    case Some(o) =>
      StorageLaws.ValidAfterDelete(s, Some(o));
      StorageLaws.CountAfterDelete(s, o, cls);
  }

  // ---------------------------------------------------------------- create

  /** `Cls(**fields)`: the payload's attributes, with "id" set to the key the constructor assigns. */
  function Spawn(k: Kind, newId: string, fields: map<string, Json>): (o: Row)
    ensures o.kind == k && o.id == newId
    ensures o.attrs.Keys == fields.Keys + {"id"}
    ensures o.attrs["id"] == JStr(newId)
    ensures forall key :: key in fields && key != "id" ==> o.attrs[key] == fields[key]
  {
    Row(k, newId, fields["id" := JStr(newId)])
  }

  /** The effect of a successful create: the key was free, the new object is appended and sent back with 201. */
  predicate Created(s: Store, k: Kind, newId: string, fields: map<string, Json>, r: Step) {
    !Stored(s, k, newId)
    && r.response == Reply(201, Object(Spawn(k, newId, fields))) && r.store == New(s, Spawn(k, newId, fields))
  }

  /** `obj = Cls(**fields); obj.save()`: the commit fails when the key is already taken. */
  function Create(s: Store, k: Kind, newId: string, fields: map<string, Json>): (r: Step)
    ensures Stored(s, k, newId) ==> r == Step(s, Raised(IntegrityError))
    ensures !Stored(s, k, newId) ==> Created(s, k, newId, fields, r)
  {
    if Stored(s, k, newId) then Step(s, Raised(IntegrityError))
    else Step(New(s, Spawn(k, newId, fields)), Reply(201, Object(Spawn(k, newId, fields))))
  }

  /** A create keeps the invariant, adds one to the counts that see kind `k`, and the new object can be fetched. */
  lemma CreatedLaws(s: Store, k: Kind, newId: string, fields: map<string, Json>, r: Step, cls: KindArg)
    requires Valid(s)
    requires Created(s, k, newId, fields, r)
    ensures Valid(r.store)
    ensures Count(r.store, cls) == Count(s, cls) + (if Selects(cls, k) then 1 else 0)
    ensures Show(r.store, k, newId).response == Reply(200, Object(Spawn(k, newId, fields)))
  {
    var o := Spawn(k, newId, fields);
    StorageLaws.ValidAfterNew(s, o);
    StorageLaws.CountAfterNew(s, o, cls);
    StorageLaws.GetAfterNew(s, o);
  }

  // ---------------------------------------------------------------- update

  /**
   * `m` is `attrs` after `setattr(obj, key, value)` for every `(key, value)` of `fields`
   * whose key is not ignored: those keys take the payload's value, every other
   * attribute keeps its value, and nothing else appears.
   */
  predicate Overwrites(m: map<string, Json>, attrs: map<string, Json>, fields: map<string, Json>, ignore: set<string>) {
    && m.Keys == attrs.Keys + (fields.Keys - ignore)
    && (forall key :: key in fields && key !in ignore ==> m[key] == fields[key])
    && (forall key :: key in attrs && (key !in fields || key in ignore) ==> m[key] == attrs[key])
  }

  /** The merged attributes, as one map. */
  function Merge(attrs: map<string, Json>, fields: map<string, Json>, ignore: set<string>): (m: map<string, Json>)
    ensures Overwrites(m, attrs, fields, ignore)
  {
    map key | key in attrs.Keys + (fields.Keys - ignore) ::
      if key in fields && key !in ignore then fields[key] else attrs[key]
  }

  /** The merge is determined: only one map satisfies `Overwrites`. */
  lemma OverwritesUnique(m: map<string, Json>, m': map<string, Json>, attrs: map<string, Json>,
                         fields: map<string, Json>, ignore: set<string>)
    requires Overwrites(m, attrs, fields, ignore)
    requires Overwrites(m', attrs, fields, ignore)
    ensures m == m'
  {
    forall key | key in m
      ensures m[key] == m'[key]
    {
      if key in fields && key !in ignore {
      } else {
        assert key in attrs;
      }
    }
  }

  /** Ignored keys are never written: each keeps its value, or stays absent. */
  lemma MergeKeepsIgnored(attrs: map<string, Json>, fields: map<string, Json>, ignore: set<string>, key: string)
    requires key in ignore
    ensures key in Merge(attrs, fields, ignore) <==> key in attrs
    ensures key in attrs ==> Merge(attrs, fields, ignore)[key] == attrs[key]
  {
  }

  /** The `for key, value in data.items(): if key not in ignore: setattr(obj, key, value)` loop. */
  method SetAttrs(attrs: map<string, Json>, fields: map<string, Json>, ignore: set<string>)
    returns (m: map<string, Json>)
    ensures Overwrites(m, attrs, fields, ignore)
    ensures m == Merge(attrs, fields, ignore)
  {
    m := attrs;
    var todo := fields.Keys;
    while todo != {}
      invariant todo <= fields.Keys
      invariant m.Keys == attrs.Keys + ((fields.Keys - todo) - ignore)
      invariant forall key :: key in fields && key !in todo && key !in ignore ==> m[key] == fields[key]
      invariant forall key :: key in attrs && (key !in fields || key in todo || key in ignore) ==> m[key] == attrs[key]
      decreases todo
    {
      var key :| key in todo;
      if key !in ignore {
        m := m[key := fields[key]];
      }
      todo := todo - {key};
    }
    OverwritesUnique(m, Merge(attrs, fields, ignore), attrs, fields, ignore);
  }

  /** The effect of a successful update of `o`: the merged object replaces it and is sent back with 200. */
  predicate Amended(s: Store, o: Row, fields: map<string, Json>, ignore: set<string>, r: Step) {
    && r.response.Reply? && r.response.code == 200 && r.response.payload.Object?
    && var o' := r.response.payload.obj;
    && o'.kind == o.kind && o'.id == o.id
    && Overwrites(o'.attrs, o.attrs, fields, ignore)
    && r.store == Replace(s, o')
  }

  /** `setattr` over the payload, then `save()`. */
  function Amend(s: Store, o: Row, fields: map<string, Json>, ignore: set<string>): (r: Step)
    ensures Amended(s, o, fields, ignore, r)
  {
    var o' := o.(attrs := Merge(o.attrs, fields, ignore));
    Step(Replace(s, o'), Reply(200, Object(o')))
  }

  /**
   * An update of a stored object keeps the invariant when "id" is ignored, changes no
   * count, leaves every other object where it was, and the next read sees the merge.
   */
  lemma AmendedLaws(s: Store, o: Row, fields: map<string, Json>, ignore: set<string>, r: Step, cls: KindArg)
    requires Valid(s) && o in s && "id" in ignore
    requires Amended(s, o, fields, ignore, r)
    ensures Valid(r.store)
    ensures Count(r.store, cls) == Count(s, cls)
    ensures forall x :: x in s && !SameIdentity(x, o) ==> x in r.store
    ensures Show(r.store, o.kind, o.id).response == r.response
  {
    var o' := r.response.payload.obj;
    assert "id" in o'.attrs && o'.attrs["id"] == JStr(o'.id);
    StorageLaws.ValidAfterReplace(s, o');
    StorageLaws.CountAfterReplace(s, o', cls);
    StorageLaws.GetAfterReplace(s, o');
    forall x | x in s && !SameIdentity(x, o)
      ensures x in r.store
    {
      var i :| 0 <= i < |s| && s[i] == x;
      assert r.store[i] == x;
    }
  }

  /** An update whose payload writes nothing leaves the store exactly as it was. */
  lemma AmendNothing(s: Store, o: Row, fields: map<string, Json>, ignore: set<string>)
    requires UniqueIds(s) && o in s
    requires fields.Keys <= ignore
    ensures Amend(s, o, fields, ignore).store == s
  {
    var r := Amend(s, o, fields, ignore);
    var o' := r.response.payload.obj;
    OverwritesUnique(o'.attrs, o.attrs, o.attrs, fields, ignore);
    assert o' == o;
    var j :| 0 <= j < |s| && s[j] == o;
    forall i | 0 <= i < |s|
      ensures r.store[i] == s[i]
    {
      if SameIdentity(s[i], o) {
        assert i == j;
      }
    }
  }
}

=== FILE: wrappers.dfy ===
/** Failure-carrying result types shared by every module. */
module Wrappers {

  /** Python's `None` or a value. */
  datatype Option<+T> = None | Some(value: T)

  /** A value, or the error that was raised instead of producing it. */
  datatype Result<+T, +E> = Ok(value: T) | Err(error: E)
}

=== FILE: zack_index.dfy ===
/** The `status` and `stats` views of the `zackburnerapi` package, which count by class name. */
module ZackIndex {
  import opened Storage
  import opened Views
  import StorageLaws
  import ApiIndex

  /** GET /status */
  function Status(s: Store): (r: Step)
    ensures r.store == s
    ensures r.response == Reply(200, StatusOk)
  {
    Step(s, Reply(200, StatusOk))
  }

  /** GET /stats: `storage.count("<Class>")` for each of the six class names. */
  function SomeStats(s: Store): (r: Step)
    ensures r.store == s
    ensures r.response.Reply? && r.response.code == 200 && r.response.payload.Counts?
    ensures r.response.payload.counts.Keys == ApiIndex.StatKeys
  {
    var amenities, cities, places := Count(s, Name("Amenity")), Count(s, Name("City")), Count(s, Name("Place"));
    var reviews, states, users := Count(s, Name("Review")), Count(s, Name("State")), Count(s, Name("User"));
    ApiIndex.TallyLookup(amenities, cities, places, reviews, states, users);
    Step(s, Reply(200, Counts(ApiIndex.Tally(amenities, cities, places, reviews, states, users))))
  }

  /** Counting by name and counting by class agree, so both stats views give the same answer. */
  lemma SomeStatsIsStats(s: Store)
    ensures SomeStats(s) == ApiIndex.Stats(s)
  {
    StorageLaws.CountOfKind(s, Amenity);
    StorageLaws.CountOfKind(s, City);
    StorageLaws.CountOfKind(s, Place);
    StorageLaws.CountOfKind(s, Review);
    StorageLaws.CountOfKind(s, State);
    StorageLaws.CountOfKind(s, User);
  }
}

=== FILE: zack_places.dfy ===
/**
 * The Place views of the `zackburnerapi` package. Create and update read the body with
 * the raising `get_json()` and then call the parsed body as a function
 * (`request.get_json(silent=True)()`), which raises `TypeError`: neither view can get
 * past that line. `CreatePlaceTail` is the guarded rest of create as a function of the
 * parsed body, and the `...Intended` views run it (and the update's merge) in place of
 * the stray call.
 *
 * The lookup-based views are given twice. The plain ones look objects up with the
 * corrected `get`, so that the lines after the lookup are reachable; the `...AsWritten`
 * twins use `get` as written, which answers `None` for the classes `City` and `Place`,
 * so they answer 404 whatever is stored. The storage engine of `zbackburnermodels` is
 * not part of this model: its `get` is taken to be the one of `models`.
 */
module ZackPlaces {
  import opened Wrappers
  import opened Py
  import opened Storage
  import opened Views

  /** The attributes an update is meant never to write: a Place keeps its owner and its City. */
  const Ignored: set<string> := {"id", "user_id", "city_id", "created_at", "updated_at"}

  /** `city.places`: the Places whose "city_id" is the City's key, in table order. */
  function PlacesOf(s: Store, cityId: string): (ps: seq<Row>)
    ensures forall o :: o in ps <==> o in s && o.kind == Place && "city_id" in o.attrs && o.attrs["city_id"] == JStr(cityId)
    ensures |ps| <= |s|
  {
    if s == [] then []
    else
      var rest := PlacesOf(s[1..], cityId);
      assert forall x :: x in s ==> x == s[0] || x in s[1..];
      var o := s[0];
      (if o.kind == Place && "city_id" in o.attrs && o.attrs["city_id"] == JStr(cityId) then [o] else []) + rest
  }

  /** GET /cities/<city_id>/places */
  function GetPlacesByCity(s: Store, cityId: string): (r: Step)
    ensures r.store == s
    ensures !Stored(s, City, cityId) ==> r.response == NotFound
    ensures r.response.Reply? <==> Stored(s, City, cityId)
    ensures r.response.Reply? ==> r.response == Reply(200, Objects(PlacesOf(s, cityId)))
  {
    match Lookup(s, City, cityId)
    case None => Step(s, NotFound)
    case Some(_) => Step(s, Reply(200, Objects(PlacesOf(s, cityId))))
  }

  /** GET /cities/<city_id>/places against `get` as written: 404 for every City. */
  function GetPlacesByCityAsWritten(s: Store, cityId: string): (r: Step)
    ensures r == Step(s, NotFound)
  {
    match LookupAsWritten(s, City, cityId)
    case None => Step(s, NotFound)
    case Some(_) => Step(s, Reply(200, Objects(PlacesOf(s, cityId))))
  }

  /** GET /places/<place_id> */
  function GetPlace(s: Store, id: string): (r: Step)
    ensures r.store == s
    ensures !Stored(s, Place, id) ==> r.response == NotFound
    ensures r.response.Reply? <==> Stored(s, Place, id)
    ensures r.response.Reply? ==>
              r.response.code == 200 && r.response.payload.Object?
              && r.response.payload.obj in s && Names(r.response.payload.obj, Place, id)
  {
    Show(s, Place, id)
  }

  /** DELETE /places/<place_id> */
  function DeletePlace(s: Store, id: string): (r: Step)
    ensures !Stored(s, Place, id) ==> r == Step(s, NotFound)
    ensures Stored(s, Place, id) ==> r.response == Reply(200, EmptyObject)
    ensures forall o :: o in r.store <==> o in s && !Names(o, Place, id)
  {
    Destroy(s, Place, id)
  }

  /** GET /places/<place_id> against `get` as written: 404 for every key. */
  function GetPlaceAsWritten(s: Store, id: string): (r: Step)
    ensures r == Step(s, NotFound)
  {
    ShowAsWritten(s, Place, id)
  }

  /** DELETE /places/<place_id> against `get` as written: 404 for every key, nothing deleted. */
  function DeletePlaceAsWritten(s: Store, id: string): (r: Step)
    ensures r == Step(s, NotFound)
  {
    DestroyAsWritten(s, Place, id)
  }

  /** A deleted Place leaves its City's listing; the City itself stays. */
  lemma DeletePlaceUnlists(s: Store, id: string, cityId: string)
    requires Stored(s, City, cityId)
    ensures GetPlacesByCity(DeletePlace(s, id).store, cityId).response.Reply?
    ensures forall o :: o in GetPlacesByCity(DeletePlace(s, id).store, cityId).response.payload.objs ==> o.id != id
  {
    var x :| x in s && Names(x, City, cityId);
    assert x in DeletePlace(s, id).store;
  }

  /** The checks of both create and update before the stray call: parse (raising), then a falsy body. */
  function BodyChecks(body: Body): (g: Gate)
    ensures body.Malformed? ==> g == Stop(Raised(BadRequest))
    ensures body.Wellformed? && !Truthy(body.doc) ==> g == Stop(NotAJson)
    ensures g.Pass? <==> body.Wellformed? && Truthy(body.doc)
    ensures g.Pass? ==> g.data == body.doc
  {
    match GetJson(body)
    case Err(e) => Stop(Raised(e))
    case Ok(data) => if !Truthy(data) then Stop(NotAJson) else Pass(data)
  }

  /**
   * POST /cities/<city_id>/places as written once the City is found, which takes the
   * corrected `get`: the City is looked up first, and nothing gets past the stray call.
   */
  function CreatePlace(s: Store, cityId: string, body: Body): (r: Step)
    ensures r.store == s
    ensures !r.response.Reply?
    ensures !Stored(s, City, cityId) ==> r.response == NotFound
    ensures Stored(s, City, cityId) && BodyChecks(body).Stop? ==> r.response == BodyChecks(body).response
    ensures Stored(s, City, cityId) && BodyChecks(body).Pass? ==> r.response == Raised(TypeError)
  {
    match Lookup(s, City, cityId)
    case None => Step(s, NotFound)
    case Some(_) => StrayCall(s, body)
  }

  /** POST /cities/<city_id>/places against `get` as written: 404 for every City, and the body is never read. */
  function CreatePlaceAsWritten(s: Store, cityId: string, body: Body): (r: Step)
    ensures r == Step(s, NotFound)
  {
    match LookupAsWritten(s, City, cityId)
    case None => Step(s, NotFound)
    case Some(_) => StrayCall(s, body)
  }

  /** Create and update once their object is found: the body checks, then the stray call raises. */
  function StrayCall(s: Store, body: Body): Step {
    match BodyChecks(body)
    case Stop(resp) => Step(s, resp)
    case Pass(_) => Step(s, Raised(TypeError))
  }

  /** The `id` argument `storage.get` receives for a JSON value: a string, `None`, or something else. */
  function IdOf(v: Json): (id: IdArg)
    ensures id.IdStr? <==> v.JStr?
    ensures v.JStr? ==> id.id == v.s
    ensures id.NoId? <==> v.JNull?
  {
    match v
    case JNull => NoId
    case JStr(x) => IdStr(x)
    case _ => NotStr
  }

  /** The owner a create payload names exists: "user_id" holds the key of a stored User. */
  predicate OwnerExists(s: Store, fields: map<string, Json>) {
    "user_id" in fields && fields["user_id"].JStr? && Stored(s, User, fields["user_id"].s)
  }

  /**
   * The rest of create after the parse: "user_id", then "name" (both 400), then the
   * User must exist (404); the route's City key then overrides any "city_id" given.
   */
  function CreatePlaceTail(s: Store, cityId: string, data: Json, newId: string): (r: Step)
    ensures Contains("user_id", data) == Ok(false) ==> r == Step(s, Missing("user_id"))
    ensures data.JObject? && "user_id" in data.fields && "name" !in data.fields ==> r == Step(s, Missing("name"))
    ensures data.JObject? && "user_id" in data.fields && "name" in data.fields && !OwnerExists(s, data.fields)
            ==> r == Step(s, NotFound)
    ensures r.response.Reply? <==>
              data.JObject? && "name" in data.fields && OwnerExists(s, data.fields) && !Stored(s, Place, newId)
    ensures r.response.Reply? ==> Created(s, Place, newId, data.fields["city_id" := JStr(cityId)], r)
    ensures !r.response.Reply? ==> r.store == s
  {
    TailWith(s, cityId, data, newId, false)
  }

  /**
   * The tail with the User lookup done by the corrected `get`, or by `get` as written
   * when `asWritten` holds; the two differ in nothing else.
   */
  function TailWith(s: Store, cityId: string, data: Json, newId: string, asWritten: bool): Step {
    match Require("user_id", data)
    case Stop(resp) => Step(s, resp)
    case Pass(_) =>
      match Require("name", data)
      case Stop(resp) => Step(s, resp)
      case Pass(_) =>
        match Subscript(data, "user_id")
        case Err(e) => Step(s, Raised(e))
        case Ok(userId) =>
          var owner := if asWritten then GetAsWritten(s, Class(User), IdOf(userId))
                       else Get(s, Class(User), IdOf(userId));
          match owner
          case None => Step(s, NotFound)
          case Some(_) => Create(s, Place, newId, data.fields["city_id" := JStr(cityId)])
  }

  /**
   * The same tail against `get` as written: the User lookup passes a class object, so a
   * body that names an owner and a name is answered 404 whatever is stored.
   */
  function CreatePlaceTailAsWritten(s: Store, cityId: string, data: Json, newId: string): (r: Step)
    ensures Contains("user_id", data) == Ok(false) ==> r == Step(s, Missing("user_id"))
    ensures data.JObject? && "user_id" in data.fields && "name" !in data.fields ==> r == Step(s, Missing("name"))
    ensures data.JObject? && "user_id" in data.fields && "name" in data.fields ==> r == Step(s, NotFound)
    ensures !r.response.Reply? && r.store == s
  {
    TailWith(s, cityId, data, newId, true)
  }

  /** Wherever the tail with the corrected `get` creates the Place, the written one answers 404. */
  lemma CreatePlaceTailDiscrepancy(s: Store, cityId: string, data: Json, newId: string)
    ensures CreatePlaceTail(s, cityId, data, newId).response.Reply? ==>
              CreatePlaceTailAsWritten(s, cityId, data, newId) == Step(s, NotFound)
    ensures !CreatePlaceTail(s, cityId, data, newId).response.Reply? ==>
              CreatePlaceTailAsWritten(s, cityId, data, newId).response == NotFound
              || CreatePlaceTailAsWritten(s, cityId, data, newId) == CreatePlaceTail(s, cityId, data, newId)
  {
  }

  /** A stored User named by the body: the corrected tail creates the Place, the written one answers 404. */
  lemma CreatePlaceTailCounterexample()
    ensures var s := [Row(City, "c1", map["id" := JStr("c1")]), Row(User, "u1", map["id" := JStr("u1")])];
            var data := JObject(map["user_id" := JStr("u1"), "name" := JStr("Loft")]);
            CreatePlaceTail(s, "c1", data, "p1").response.Reply?
            && CreatePlaceTailAsWritten(s, "c1", data, "p1") == Step(s, NotFound)
  {
    var s := [Row(City, "c1", map["id" := JStr("c1")]), Row(User, "u1", map["id" := JStr("u1")])];
    var data := JObject(map["user_id" := JStr("u1"), "name" := JStr("Loft")]);
    assert Names(s[1], User, "u1");
    assert !Stored(s, Place, "p1");
    assert OwnerExists(s, data.fields);
  }

  /** POST /cities/<city_id>/places as evidently intended: the tail runs on the parsed body. */
  function CreatePlaceIntended(s: Store, cityId: string, body: Body, newId: string): (r: Step)
    ensures !Stored(s, City, cityId) ==> r == Step(s, NotFound)
    ensures Stored(s, City, cityId) && BodyChecks(body).Stop? ==> r == Step(s, BodyChecks(body).response)
    ensures Stored(s, City, cityId) && BodyChecks(body).Pass? ==> r == CreatePlaceTail(s, cityId, body.doc, newId)
  {
    match Lookup(s, City, cityId)
    case None => Step(s, NotFound)
    case Some(_) =>
      match BodyChecks(body)
      case Stop(resp) => Step(s, resp)
      case Pass(data) => CreatePlaceTail(s, cityId, data, newId)
  }

  /** A Place the intended create adds belongs to the route's City and shows up in that City's listing. */
  lemma CreatedPlaceIsListed(s: Store, cityId: string, body: Body, newId: string)
    requires Valid(s)
    requires CreatePlaceIntended(s, cityId, body, newId).response.Reply?
    ensures var r := CreatePlaceIntended(s, cityId, body, newId);
            Valid(r.store)
            && r.response.payload.Object?
            && r.response.payload.obj.attrs["city_id"] == JStr(cityId)
            && r.response.payload.obj in GetPlacesByCity(r.store, cityId).response.payload.objs
  {
    var r := CreatePlaceIntended(s, cityId, body, newId);
    assert Stored(s, City, cityId) && BodyChecks(body).Pass?;
    assert r == CreatePlaceTail(s, cityId, body.doc, newId);
    var fields := body.doc.fields["city_id" := JStr(cityId)];
    var o := Spawn(Place, newId, fields);
    assert r.store == New(s, o) && r.response.payload.obj == o;
    assert o.attrs["city_id"] == JStr(cityId);
    CreatedLaws(s, Place, newId, fields, r, NoKind);
    NewKeepsStored(s, o, City, cityId);
    assert o in r.store by { assert r.store[|s|] == o; }
  }

  /** Appending an object leaves every stored key stored. */
  lemma NewKeepsStored(s: Store, o: Row, k: Kind, id: string)
    requires Stored(s, k, id)
    ensures Stored(New(s, o), k, id)
  {
    var x :| x in s && Names(x, k, id);
    assert x in New(s, o) by { assert New(s, o)[..|s|] == s; }
  }

  /** The two versions answer alike until the stray call; past it the written one always raises. */
  lemma CreatePlaceDiscrepancy(s: Store, cityId: string, body: Body, newId: string)
    ensures !(Stored(s, City, cityId) && BodyChecks(body).Pass?) ==>
              CreatePlace(s, cityId, body) == CreatePlaceIntended(s, cityId, body, newId)
    ensures CreatePlaceIntended(s, cityId, body, newId).response.Reply? ==>
              Code(CreatePlace(s, cityId, body).response) == 500
  {
  }

  /** A concrete request that shows it: a City, a User, and a body naming both. */
  lemma CreatePlaceCounterexample()
    ensures var s := [Row(City, "c1", map["id" := JStr("c1")]), Row(User, "u1", map["id" := JStr("u1")])];
            var body := Wellformed(JObject(map["user_id" := JStr("u1"), "name" := JStr("Loft")]));
            CreatePlace(s, "c1", body) == Step(s, Raised(TypeError))
            && CreatePlaceIntended(s, "c1", body, "p1").response.Reply?
  {
    var s := [Row(City, "c1", map["id" := JStr("c1")]), Row(User, "u1", map["id" := JStr("u1")])];
    var body := Wellformed(JObject(map["user_id" := JStr("u1"), "name" := JStr("Loft")]));
    assert Names(s[0], City, "c1");
    assert Names(s[1], User, "u1");
    assert !Stored(s, Place, "p1");
    assert OwnerExists(s, body.doc.fields);
  }

  /**
   * PUT /places/<place_id> as written once the Place is found, which takes the corrected
   * `get`: lookup, parse (raising), falsy body, then the stray call.
   */
  function UpdatePlace(s: Store, id: string, body: Body): (r: Step)
    ensures r.store == s
    ensures !r.response.Reply?
    ensures !Stored(s, Place, id) ==> r.response == NotFound
    ensures Stored(s, Place, id) && BodyChecks(body).Stop? ==> r.response == BodyChecks(body).response
    ensures Stored(s, Place, id) && BodyChecks(body).Pass? ==> r.response == Raised(TypeError)
  {
    match Lookup(s, Place, id)
    case None => Step(s, NotFound)
    case Some(_) => StrayCall(s, body)
  }

  /** PUT /places/<place_id> against `get` as written: 404 for every key, and the body is never read. */
  function UpdatePlaceAsWritten(s: Store, id: string, body: Body): (r: Step)
    ensures r == Step(s, NotFound)
  {
    match LookupAsWritten(s, Place, id)
    case None => Step(s, NotFound)
    case Some(_) => StrayCall(s, body)
  }

  /** PUT /places/<place_id> as evidently intended: the ignore-list merge runs. */
  function UpdatePlaceIntended(s: Store, id: string, body: Body): (r: Step)
    ensures !Stored(s, Place, id) ==> r == Step(s, NotFound)
    ensures Stored(s, Place, id) && BodyChecks(body).Stop? ==> r == Step(s, BodyChecks(body).response)
    ensures r.response.Reply? <==> Stored(s, Place, id) && IsDict(body) && |Fields(body)| > 0
    ensures r.response.Reply? ==>
              Lookup(s, Place, id).Some? && Amended(s, Lookup(s, Place, id).value, Fields(body), Ignored, r)
    ensures !r.response.Reply? ==> r.store == s
  {
    match Lookup(s, Place, id)
    case None => Step(s, NotFound)
    case Some(place) =>
      match BodyChecks(body)
      case Stop(resp) => Step(s, resp)
      case Pass(data) =>
        match Items(data)
        case Err(e) => Step(s, Raised(e))
        case Ok(fields) => Amend(s, place, fields, Ignored)
  }

  /** The two update versions answer alike until the stray call; past it the written one always raises. */
  lemma UpdatePlaceDiscrepancy(s: Store, id: string, body: Body)
    ensures !(Stored(s, Place, id) && BodyChecks(body).Pass?) ==> UpdatePlace(s, id, body) == UpdatePlaceIntended(s, id, body)
    ensures UpdatePlaceIntended(s, id, body).response.Reply? ==> UpdatePlace(s, id, body) == Step(s, Raised(TypeError))
  {
  }

  /** A concrete request that shows it: a stored Place and a body that renames it. */
  lemma UpdatePlaceCounterexample()
    ensures var s := [Row(Place, "p1", map["id" := JStr("p1"), "name" := JStr("Loft")])];
            var body := Wellformed(JObject(map["name" := JStr("Attic")]));
            UpdatePlace(s, "p1", body) == Step(s, Raised(TypeError))
            && UpdatePlaceIntended(s, "p1", body).response.Reply?
            && UpdatePlaceIntended(s, "p1", body).response.payload.obj.attrs["name"] == JStr("Attic")
  {
    var s := [Row(Place, "p1", map["id" := JStr("p1"), "name" := JStr("Loft")])];
    var body := Wellformed(JObject(map["name" := JStr("Attic")]));
    assert Names(s[0], Place, "p1");
    assert Fields(body)["name"] == JStr("Attic");
  }

  /** The intended update never moves a Place to another City or owner, and keeps the store valid. */
  lemma UpdatePlaceIntendedKeepsOwner(s: Store, id: string, body: Body, key: string)
    requires Valid(s)
    requires UpdatePlaceIntended(s, id, body).response.Reply?
    requires key == "user_id" || key == "city_id"
    ensures var before := Lookup(s, Place, id).value;
            var after := UpdatePlaceIntended(s, id, body).response.payload.obj;
            (key in after.attrs <==> key in before.attrs) && (key in before.attrs ==> after.attrs[key] == before.attrs[key])
    ensures Valid(UpdatePlaceIntended(s, id, body).store)
  {
    var r := UpdatePlaceIntended(s, id, body);
    AmendedLaws(s, Lookup(s, Place, id).value, Fields(body), Ignored, r, NoKind);
  }
}
